=== FILE: README.md ===
# BookBurst client core in Dafny

A model of the functional core of the BookBurst web client (a React app for keeping a
bookshelf, writing reviews and browsing explore feeds), with its properties proved in
Dafny. The model covers:

- the reading timeline: month buckets, per-month counts, display order, bar sizes and
  the history fetch;
- the session store: restore, login, logout, `isAuthenticated` and the exposed token;
- the login and signup forms that drive the session, and the header's sign-out;
- the header's display rules: protected links, account entries and avatar initials;
- the two REST clients: request building, percent-encoding of the search query, the
  genre filter rules, the non-ok-is-error rule and the normalisation of explore feeds;
- the explore page's cookie-backed tab and genre and its feed dispatcher;
- the bookshelf page's list transitions and form guards, the book card's gating and
  visibility rules, and the review form's submit handler.

JavaScript values are the `Js.Value` datatype. Truthiness, property reads (with their
TypeError on `null`/`undefined`), `||`, `===`, `String(v)` and object spread are written
out in module `Js`. Numbers are integers plus `NaN`. `JSON.parse` and `JSON.stringify`
are function parameters, and no lemma assumes anything about them except through an
explicit `requires`. Every network call is a parameter describing how it ended:

- `Api.Reply` for `fetch`;
- `BookshelfPage.Response` for axios;
- `ReviewPage.Reply` for the review form.

Browser storage and cookies are maps from strings to strings. The clock is a parameter
(`now`), and so is the Google Books id check (`validId`).

One module per source file:

| module | file |
|---|---|
| `Timeline` | `TimelinePage.jsx` |
| `Session` | `AuthContext.jsx` |
| `AuthForm` | the tail shared by the two forms |
| `LoginPage`, `SignupPage` | the two forms |
| `Header` | `Header.jsx` |
| `Api` | `api.js` |
| `ExploreApi` | `exploreApi.js` |
| `ExplorePage` | `explorePage.jsx` |
| `BookshelfPage` | `BookshelfPage.jsx` |
| `BookCard` | `BookCard.jsx` |
| `ReviewPage` | `ReviewPage.jsx` |
| `Js`, `Text`, `Uri` | the language and library behaviour they rely on: JS values, string functions, `encodeURIComponent` and a decoder for it |

## Model

| member | source | states |
|---|---|---|
| Timeline.MonthKeyCases | src/pages/TimelinePage.jsx:26 | `null`, a missing date and `""` all give `"unknown"`; a non-empty date gives its first seven characters, or all of it when shorter |
| Timeline.IndexOf | src/pages/TimelinePage.jsx:27 | the lookup `acc[key]` finds the bucket with that key, and finds nothing exactly when no bucket has it |
| Timeline.Place | src/pages/TimelinePage.jsx:27-29 | one reduce step: keys stay distinct; an existing key's bucket gets the book at its end and no other bucket changes; a new key adds a one-book bucket at the end; the key set grows by exactly the book's key |
| Timeline.GroupIsGrouping | src/pages/TimelinePage.jsx:24-30 | the grouping has one bucket per distinct key; each bucket holds exactly the books with that key in input order; buckets are in order of first key occurrence |
| Timeline.GroupPreservesBooks | src/pages/TimelinePage.jsx:24-30 | the buckets together hold exactly the input books as a multiset: none lost, none duplicated |
| Timeline.CountsMatchBooks | src/pages/TimelinePage.jsx:34-35 | one `{month, count}` per bucket in the grouping's order, each count being the number of input books with that key |
| Timeline.CountsSumToInput | src/pages/TimelinePage.jsx:34-35 | the monthly counts add up to the number of finished books |
| Timeline.EmptyTimeline | src/pages/TimelinePage.jsx:76-77 | there are no monthly counts (the "No finished books yet." case) exactly when there are no books |
| Timeline.DisplayOrder | src/pages/TimelinePage.jsx:136-137 | the sorted entries are strictly descending by key in the string order and are a permutation of the grouping |
| Timeline.DescendingUnique | src/pages/TimelinePage.jsx:136-137 | any correct sort gives the same result, because two descending arrangements of the same buckets are equal |
| Timeline.UnknownDisplayedFirst | src/pages/TimelinePage.jsx:136-137 | when every other key starts with a digit, the `"unknown"` bucket is shown first |
| Timeline.BarHeight | src/pages/TimelinePage.jsx:109 | the bar is 10 pixels plus 10 per book, and the count can be read back from the height |
| Timeline.BarHeightMonotone | src/pages/TimelinePage.jsx:109 | more books give a strictly taller bar |
| Timeline.BarTitlePlural | src/pages/TimelinePage.jsx:117 | the title reads "books" exactly when the count is above one, and starts with the month and the count |
| Timeline.FetchHistory | src/pages/TimelinePage.jsx:44-71 | without a token only the login error is set and nothing is sent; otherwise the pending page is loading with no error, the history request is sent, and loading ends; an ok parsed reply replaces the books and leaves no error; every other outcome keeps the books and sets an error: the network or parse message, or "Failed to load reading history" when that is empty, and the status for a non-ok reply |
| Timeline.HistoryRequestAgrees | src/pages/TimelinePage.jsx:52-58 | the GET the page writes by hand, with the bearer and JSON headers, is the `api` client's reading-history request |
| Timeline.HistoryErrorIffFailed | src/pages/TimelinePage.jsx:60-67 | with a token, the settled page has no error exactly when an ok reply parsed, and then shows those books; otherwise it keeps the old ones |
| Session.Restore | src/context/AuthContext.jsx:6-9 | an absent or empty `'user'` record restores `null`; otherwise the record is parsed, and a parse error is an error rather than a signed-out start |
| Session.Init | src/context/AuthContext.jsx:6-9 | the provider starts exactly when the restore succeeds, with storage untouched |
| Session.Login | src/context/AuthContext.jsx:11-15 | the user is `userData`'s fields plus `token`, with the token overriding; the same object is stored under `'user'`; no other storage key changes |
| Session.Logout | src/context/AuthContext.jsx:17-21 | no user; exactly `'user'` and `'lastSearch'` are removed and every other key keeps its value |
| Session.Token | src/context/AuthContext.jsx:29 | `user.token` when there is a user, `null` otherwise |
| Session.LogoutIdempotent | src/context/AuthContext.jsx:17-21 | signing out twice is signing out once |
| Session.LogoutKeepsToken | src/context/AuthContext.jsx:17-21 | the `'token'` key written by the forms survives sign-out, and the session is no longer authenticated |
| Session.AuthenticatedIffToken | src/context/AuthContext.jsx:23 | authenticated exactly when the exposed token is truthy |
| Session.LoginAuthenticates | src/context/AuthContext.jsx:11-15 | after `login(t, d)` the session is authenticated exactly when `t` is truthy and exposes `t` |
| Session.LoginRestoreRoundTrip | src/context/AuthContext.jsx:6-15 | what login stores, the next start restores, given that parsing reads back what stringifying wrote |
| AuthForm.SignIn | src/pages/LoginPage.jsx:28-31 | a `null` body throws before anything is written; when nothing threw, the storage gains the token as text under `token` and the stringified user under `user`, and the user is `{email, alias, token}` with the email and alias read from `data.user` and the token from `data.token`; navigation to `/` happens exactly when nothing threw |
| AuthForm.TokenWrittenWithoutUser | src/pages/LoginPage.jsx:29-30 | a body without `user` throws after the token was already written, and the user stays as it was |
| AuthForm.SignInAuthenticates | src/pages/LoginPage.jsx:29-30 | the signed-in session exposes the server's token and is authenticated exactly when it is truthy |
| LoginPage.Payload | src/pages/LoginPage.jsx:28 | the payload is exactly `{email, password}` |
| LoginPage.Submit | src/pages/LoginPage.jsx:23-37 | while pending, no error and loading; loading ends false; the request is the login call; failure leaves the session alone, does not navigate and shows the message or "Login failed"; a settled reply leaves the session and navigation of the shared sign-in tail, and an error it throws is shown as its message or "Login failed" |
| LoginPage.SubmitOutcomes | src/pages/LoginPage.jsx:29-34 | navigation only goes to `/` and only after the token and the user were stored and the user became `{email, alias, token}` with the email and alias of `data.user`; a non-ok answer shows the server's text |
| SignupPage.Submit | src/pages/SignupPage.jsx:25-46 | a password mismatch sends nothing and shows "Passwords don't match"; otherwise, while pending, no error and loading; the signup call is sent and loading ends false; navigation goes only to `/`, only when no error is shown, and only after the token and the user were stored and the user became `{email, alias, token}` with the email and alias of `data.user`; failure leaves the session alone and shows the message or "Signup failed" |
| SignupPage.SubmitOutcomes | src/pages/SignupPage.jsx:36-39 | a body that signs in goes home with no error, exposes the server's token and signs in as the email and alias of `data.user`; a body without `user` does not navigate, leaves the user as it was and leaves the token written |
| SignupPage.Payload | src/pages/SignupPage.jsx:36 | the payload is exactly `{email, password, alias}`, carrying the form's three values |
| SignupPage.MismatchKeepsLoading | src/pages/SignupPage.jsx:29-32 | the mismatch guard leaves `loading` and the session as they were |
| Header.Visible | src/components/Header.jsx:49-51 | a link is shown exactly when it is public or a user is present, with nothing shown that is not a nav link |
| Header.DrawerMatchesBar | src/components/Header.jsx:73-74 | the drawer's rule, written negated, shows the same links as the bar |
| Header.VisibleNavLinks | src/components/Header.jsx:43-51 | signed out, only Explore; signed in, all three links in order |
| Header.TokenlessUserSeesProtectedLinks | src/components/Header.jsx:51 | a user without a token is not authenticated yet sees Bookshelf and Timeline |
| Header.DrawerEntries | src/components/Header.jsx:83-102 | the drawer has Logout exactly when a user is present and Login exactly when not |
| Header.MenuEntries | src/components/Header.jsx:138-176 | the desktop bar has Login and Signup exactly when signed out, Profile and Logout exactly when signed in |
| Header.ProfilePath | src/components/Header.jsx:167 | the profile destination is `/user/` followed by the username as text |
| Header.Initials | src/components/Header.jsx:155-161 | with a string name, the upper-cased starts of its space-separated words; else one character, the username's first upper-cased or `U`; a non-string name or username throws |
| Header.FirstCharsOfSplit | src/components/Header.jsx:156-159 | the first characters of the parts of `split(' ')`, empty parts giving nothing, are exactly the word starts of the name |
| Header.HandleLogout | src/components/Header.jsx:37-41 | the session is signed out, the menu is closed and the location is `/` |
| Header.LogoutShowsPublicBar | src/components/Header.jsx:37-51 | after signing out the bar shows only Explore, with Login and Signup in both the bar and the drawer |
| Api.AuthHeadersCarryToken | src/api/api.js:3-6 | the server reads back exactly `String(token)` after `Bearer `, so a `null` token is sent as the word `null` |
| Api.RequestOf | src/api/api.js:8-131 | each call posts a body exactly when it is a POST; the token-carrying calls send the auth headers; every URL starts with the API base |
| Api.SearchQueryEncoded | src/api/api.js:32 | the query part decodes back to the query, and holds no `&`, `#`, `=` or space |
| Api.BookDetailsDefaults | src/api/api.js:67-68 | an omitted page and limit give `?page=1&limit=10`; an explicit `null` page is sent as `null` |
| Api.ApiGenreSuffix | src/api/api.js:85-104 | the explore URLs of this client get `?genre=<genre>` exactly when the genre is truthy, unencoded and with no "All" rule |
| Api.Settle | src/api/api.js:16-17 | an error exactly for a rejected fetch, a non-ok status or an unreadable body; a non-ok status gives the response text |
| Api.NonOkIsError | src/api/api.js:16 | a non-ok answer to any call is the error carrying the response text |
| Uri.DecodeEncode | src/api/exploreApi.js:2 | decoding the percent-encoded form of a string gives the string back |
| Uri.EncodeInjective | src/api/exploreApi.js:2 | different genres or queries never encode alike |
| ExploreApi.GenreQuery | src/api/exploreApi.js:2 | the suffix is empty exactly when the genre is falsy or "All"; otherwise it is `?genre=` and a part that decodes to the genre |
| ExploreApi.UnfilteredGenres | src/api/exploreApi.js:2 | "All", `""`, `null` and `undefined` all request the unfiltered feed |
| ExploreApi.ApiAndExploreUrls | src/api/exploreApi.js:2 | this client and `api.js` disagree on "All" and agree on other genres that need no escaping |
| ExploreApi.Normalise | src/api/exploreApi.js:7-11 | a `null` item throws; otherwise the item keeps all its fields, and `authors` and `genres` are decoded when they are strings and passed through otherwise; a decoding error is the result's error |
| ExploreApi.NormaliseIdempotent | src/api/exploreApi.js:7-11 | normalising twice is normalising once when decoding never yields a string |
| ExploreApi.NormaliseAll | src/api/exploreApi.js:7-11 | the map succeeds exactly when every item does, keeps length and order, and otherwise fails with the first failing item's error |
| ExploreApi.Fetch | src/api/exploreApi.js:1-34 | a non-ok status gives the feed's fixed message; a rejected fetch keeps its own; an ok array is normalised for book feeds |
| ExploreApi.EmptyFallback | src/api/exploreApi.js:1-28 | a body that is not a non-empty array gives `[]` on every feed and never an error |
| ExploreApi.ReviewsUnchanged | src/api/exploreApi.js:19-20 | recent reviews come back exactly as sent |
| ExploreApi.BooksKeepFields | src/api/exploreApi.js:7-11 | book feeds keep the number of items and every field; non-string `authors` and `genres` pass through unchanged |
| ExploreApi.UpdateTabPreference | src/api/exploreApi.js:36-44 | posts `{tab}` as JSON to `/explore/tab`; a non-ok status gives the fixed message "Failed to update tab preference" |
| ExplorePage.Init | src/pages/explorePage.jsx:19-24 | the tab is the saved cookie or "trending", the genre the saved cookie or "All"; lists empty, no error, not loading |
| ExplorePage.FeedOf | src/pages/explorePage.jsx:37-49 | each of the three tab names selects its own feed, and no other name selects any |
| ExplorePage.FetchData | src/pages/explorePage.jsx:30-59 | the tab and genre go to cookies first; a known tab sends its feed request with the genre, then, once the feed loaded, the preference post; an unknown tab sends only the preference post; on any error both lists are empty and the message or fallback is shown, the preference's own message included; an unknown tab whose post succeeds ends with no error and its lists untouched; loading ends false |
| ExplorePage.FetchDataShowsFeed | src/pages/explorePage.jsx:37-51 | with both calls succeeding, new reviews fill `reviews` and clear `books`, and the book feeds do the opposite |
| ExplorePage.PreferenceFailureHidesFeed | src/pages/explorePage.jsx:51-55 | a failed preference post empties the lists that the feed had filled and shows its message |
| ExplorePage.CookiesRestoreTabAndGenre | src/pages/explorePage.jsx:19-34 | the next visit opens on the tab and genre of the last fetch |
| ExplorePage.ToNumber | src/pages/explorePage.jsx:108 | `Number` gives numbers back unchanged, `NaN` for a plain object and for an array of two or more elements, 0 for the empty array, and converts a one-element array like its element |
| ExplorePage.ExploreRatingLine | src/pages/explorePage.jsx:108 | an explore card shows its rating line exactly when the book's rating is truthy: a numeric 0 is hidden, the string "0" shows 0 |
| BookCard.UpdateStatus | src/components/BookCard.jsx:35-44 | signed out, exactly the login alert; the parent is called exactly when signed in with a callback and a changed status, with `{status}` and no id |
| BookCard.ReviewAndSelectorExclusive | src/components/BookCard.jsx:114-120 | the review button and the status selector never show together, and neither shows when signed out |
| BookCard.EnabledButtonUpdates | src/components/BookCard.jsx:35-44 | a signed-in press on an enabled button reaches the parent; a press while disabled does nothing |
| BookCard.RatingLineCases | src/components/BookCard.jsx:101 | the rating line is hidden only when the rating is `undefined`, so 0 is shown |
| BookshelfPage.FetchShelf | src/pages/BookshelfPage.jsx:49-62 | loading while pending and not after; the request asks for the current tab; a missing body gives `[]`; a failure keeps the shelf and sets the server's error or the fallback |
| BookshelfPage.ErrorSurvivesReload | src/pages/BookshelfPage.jsx:49-62 | the error is never cleared, so after a failed load a successful one still shows the error |
| BookshelfPage.ShelfUrlAgrees | src/pages/BookshelfPage.jsx:52 | the page's shelf URL is the `api` client's |
| BookshelfPage.TabChange | src/pages/BookshelfPage.jsx:64-75 | the tab changes at once and nothing else changes; the preference is posted |
| BookshelfPage.TabChangeIgnoresReply | src/pages/BookshelfPage.jsx:72-74 | a failed preference post is only logged |
| BookshelfPage.Replace | src/pages/BookshelfPage.jsx:89-91 | the map keeps the length; entries with the update's id become the update and the others stay; a `null` entry throws |
| BookshelfPage.ReplaceIdempotent | src/pages/BookshelfPage.jsx:89-91 | applying the same update twice is applying it once |
| BookshelfPage.PatchBody | src/pages/BookshelfPage.jsx:81-86 | `finishedAt` is the clock reading exactly when the status is "finished", `null` otherwise |
| BookshelfPage.UpdateBook | src/pages/BookshelfPage.jsx:77-95 | the PATCH URL carries the status; success replaces matching entries; failure alerts the server's error or "Failed to update book" and changes nothing |
| BookshelfPage.CardStatusChange | src/components/BookCard.jsx:35-44 | a press on a shelf card, with the corrected card of "## Findings" that sends its id: the login alert when signed out, nothing when disabled, else the PATCH of the new status (the alert, the no-op and the PATCH are the same for the card as written) |
| BookshelfPage.Search | src/pages/BookshelfPage.jsx:97-113 | a blank query does nothing; otherwise the error is cleared while pending, the trimmed query is sent, and a failure shows the error and empties the results |
| BookshelfPage.SearchSendsTrimmedQuery | src/pages/BookshelfPage.jsx:98-104 | a request is made exactly when the trimmed query is non-empty, and the query sent neither starts nor ends with white space |
| BookshelfPage.AddBody | src/pages/BookshelfPage.jsx:123-133 | the body carries the book's nine fields, `genres` defaulting to `[]` |
| BookshelfPage.AddBook | src/pages/BookshelfPage.jsx:115-144 | no truthy id means the alert and no request; success appends the response and resets the dialog; failure changes nothing |
| BookshelfPage.AddAppends | src/pages/BookshelfPage.jsx:136 | a successful add grows the shelf by one, keeps the old entries in front and puts the new record last |
| BookshelfPage.ManualAdd | src/pages/BookshelfPage.jsx:155-166 | a missing id or title, or an id that fails the check, only alerts and sends nothing; a request is sent only for a valid id and carries the draft's add body |
| BookshelfPage.AuthorsField | src/pages/BookshelfPage.jsx:300 | one author per comma-separated part, trimmed, so commas plus one; no author contains a comma |
| BookshelfPage.AuthorsRoundTrip | src/pages/BookshelfPage.jsx:298-300 | reading back the field's display `authors.join(', ')` gives the same authors, for names without commas or surrounding space |
| ReviewPage.RatingFromWidget | src/pages/ReviewPage.jsx:96 | a cleared widget gives 0 |
| ReviewPage.Body | src/pages/ReviewPage.jsx:53-58 | the body is exactly `{bookId, rating, content, recommend}`, carrying the book id, the rating, the text and the recommend choice |
| ReviewPage.Review | src/pages/ReviewPage.jsx:66-72 | `onSubmit` receives exactly `{authorAlias, reviewText, rating, recommend, date}`, with the author, the text, the rating, the choice and the clock reading |
| ReviewPage.FailureAlert | src/pages/ReviewPage.jsx:62-63 | a non-ok answer alerts the body's truthy `message`, or the status text when the body is unreadable; a JSON `null` body throws and is reported as an error |
| ReviewPage.Submit | src/pages/ReviewPage.jsx:34-83 | signed out or with a rating outside 1..5, only an alert; otherwise the review is posted and loading ends false; failure keeps the form and alerts once: a rejection with "Error submitting review: " and its message, a non-ok answer with the failure alert; success hands the review to the parent, closes and clears the form |
| ReviewPage.ClearedRatingRejected | src/pages/ReviewPage.jsx:40-43 | a cleared rating is always rejected |
| ReviewPage.FormClearedOrKept | src/pages/ReviewPage.jsx:61-80 | the form is either cleared, with the review delivered and the dialog closed, or kept as typed |
| ReviewPage.SubmitUsesCreateReview | src/pages/ReviewPage.jsx:47-52 | the form's request is the `api` client's review creation |

## Left out

- Rendering, MUI layout and styling, routing and `ProtectedRoute`: they are presentation.
- `App.jsx`, `ErrorBoundary.jsx`, `FeatureCard.jsx`, `ReviewCard.tsx` and `HomePage.jsx` are wiring or presentation. `HomePage.jsx:26` passes the token where `getTrendingBooks` expects a genre; `Api.ApiGenreSuffix` shows that such a token would be sent as `?genre=<token>`.
- `cookieUtils` is not part of this model. A missing cookie is taken to read as a falsy value.
- Dates: the formatting of month headings and of review dates is left out. `finishedAt` and the review's `date` are the parameter `now`.
- The Google Books id check is a network call; it is the boolean `validId`.
- Asynchronous interleaving is left out: a late reply overwriting a newer tab or genre. Each handler is one sequential run with its replies given.
- The React effects that trigger loads are left out; `BookshelfPage.ShouldLoad` states the load condition.
- Object-key order for integer-like keys is left out. Month keys keep first-insertion order, which matches for `YYYY-MM` and `"unknown"`.
- `JSON.parse` and `JSON.stringify` are uninterpreted, so no property depends on their behaviour.
- Js.Spread: spreading an array or a string, which copies its indices as keys, is not modelled; only objects are spread.
- ExplorePage.ToNumber: strings other than optional white space around decimal digits, such as fractions, exponents, hex and `Infinity`, give `None`, not a number; so does an array whose one element is such a string. Objects with their own `valueOf` or `toString` do not arise from parsed JSON and are not modelled.
- Text.Upper: upper-cases ASCII letters only. `toUpperCase` also maps other scripts and can lengthen a string.
- Characters are Unicode scalar values. JavaScript strings are UTF-16, so lengths, indices and `<` differ only for characters above U+FFFF.
- Header.HandleLogout: the menu anchor is the boolean `menuOpen`, and the opening click (`handleMenuOpen`) is left out.
- BookshelfPage.Elements: a non-iterable shelf throws inside the state updater while React renders, not in the handler. The model reports that throw as the handler's `Err`.
- BookshelfPage.UpdateBook: a shelf that is not an array, or a `null` entry, throws inside the `setBookshelf` updater during rendering; the model reports it as the handler's `Err`, as for `Elements`.
- BookshelfPage.Replace: the `null`-entry throw happens inside the same updater and is reported as `Err` in the same way.
- Js.TypeErrorMessage: one fixed text stands in for the engine's TypeError message, which names the value and the property (V8: "Cannot read properties of null (reading 'token')"). The forms show that message through `err?.message`, so the exact text a user sees is not modelled.
- Timeline.FetchHistory: the body of an ok reply is taken to be an array of books whose `finishedDate` is a string, `null` or missing. A `{}` or `null` body, stored and then breaking `reduce` at render, and a non-string date, breaking `.slice`, are not modelled.
- ReviewPage.Submit: a missing `onSubmit` or `onClose` is the only thrown call modelled after the success alert, and its message is abbreviated.
- BookCard.UpdateStatus: the explore page passes `id` and `thumbnail`, which the card never reads; those props are left out.

## Findings

| source | as written | input that shows it | evidently intended | confidence | as-written member | corrected member |
|---|---|---|---|---|---|---|
| src/components/BookCard.jsx:42 with src/pages/BookshelfPage.jsx:89-91 | the card calls `onUpdate({ status: newStatus })`, and the page replaces the entries whose `googleBooksId` is `===` to the update's, which is then `undefined` | a shelf `[{googleBooksId: "a", status: "reading"}]` where the reader moves card "a" to finished: the shelf still says reading (and an entry without an id would have been overwritten) | the update names the card's book, so that book's entry gets the new status and no other entry changes | high (not executed) | BookshelfPage.CardUpdateChangesNothing | BookshelfPage.CardUpdateWithIdReachesBook |

`BookCard.UpdateStatus` models the card as written. `BookshelfPage.CardUpdateExample` is
the worked example on a one-book shelf. `BookCard.UpdateStatusWithId` is the card with its id added to the
argument, and `BookshelfPage.CardStatusChange` uses that corrected card. The PATCH URL
(`/api/books/tab/<status>`) names no book either. Since the server side is not part of
this model, the request is kept as written.

=== FILE: api.dfy ===
/** The REST client of `api.js`: the requests each endpoint sends (method, URL, headers,
    body) and the rule that turns a reply into a value or an error. The network itself is a
    parameter: a `Reply` stands for whatever the server answered. */
module Api {
  import opened Js
  import Text
  import Uri

  const BaseUrl := "https://bookbrust-server.onrender.com/api"

  datatype Header = Header(name: string, value: string)

  const JsonContentType := Header("Content-Type", "application/json")

  /** `getAuthHeaders(token)`: a bearer authorization carrying the token as a template
      literal renders it, and the JSON content type. */
  function AuthHeaders(token: Value): (hs: seq<Header>)
    ensures |hs| == 2 && hs[1] == JsonContentType
  {
    [Header("Authorization", "Bearer " + ToString(token)), JsonContentType]
  }

  /** What a server reads back from an `Authorization` header: the credentials after
      `"Bearer "` in the first such header. */
  function BearerCredentials(hs: seq<Header>): Option<string>
  {
    if hs == [] then None
    else if hs[0].name == "Authorization" && |hs[0].value| >= 7 && hs[0].value[..7] == "Bearer " then
      Some(hs[0].value[7..])
    else BearerCredentials(hs[1..])
  }

  /** The token is recoverable from the headers: the server sees exactly `String(token)`,
      so `null` and `undefined` tokens are sent as the words `null` and `undefined`. */
  lemma AuthHeadersCarryToken(token: Value)
    ensures BearerCredentials(AuthHeaders(token)) == Some(ToString(token))
    ensures BearerCredentials(AuthHeaders(Null)) == Some("null")
  {
    var v := "Bearer " + ToString(token);
    assert v[..7] == "Bearer " && v[7..] == ToString(token);
    var n := "Bearer " + ToString(Null);
    assert n[..7] == "Bearer " && n[7..] == "null";
  }

  datatype Verb = Get | Post

  datatype Request = Request(verb: Verb, url: string, headers: seq<Header>, body: Option<Value>)

  /** The calls of the `api` object with their arguments. */
  datatype Endpoint =
    | Signup(payload: Value)
    | Login(payload: Value)
    | SearchBooks(query: Value, token: Value)
    | GetBookshelf(token: Value)
    | AddBookToBookshelf(book: Value, token: Value)
    | SetBookshelfTabPreference(tab: Value, token: Value)
    | GetBookDetails(googleBooksId: Value, page: Value, limit: Value)
    | CreateReview(payload: Value, token: Value)
    | GetTrendingBooks(genre: Value)
    | GetRecentReviews(genre: Value)
    | GetTopRatedBooks(genre: Value)
    | SetExploreTabPreference(tab: Value)
    | GetPublicProfile(userId: Value)
    | GetReadingHistory(token: Value)
  {
    /** The calls that send the user's token. */
    predicate Authenticated()
    {
      SearchBooks? || GetBookshelf? || AddBookToBookshelf? || SetBookshelfTabPreference?
      || CreateReview? || GetReadingHistory?
    }

    /** The calls that `POST` a JSON body. */
    predicate Posts()
    {
      Signup? || Login? || AddBookToBookshelf? || SetBookshelfTabPreference?
      || CreateReview? || SetExploreTabPreference?
    }

    function Token(): Value
      requires Authenticated()
    {
      match this
      case SearchBooks(_, t) => t
      case GetBookshelf(t) => t
      case AddBookToBookshelf(_, t) => t
      case SetBookshelfTabPreference(_, t) => t
      case CreateReview(_, t) => t
      case GetReadingHistory(t) => t
    }
  }

  /** A default parameter: it replaces `undefined` only, so an explicit `null` stays. */
  function Default(v: Value, d: Value): (r: Value)
    ensures v != Undefined ==> r == v
    ensures v == Undefined ==> r == d
  {
    if v == Undefined then d else v
  }

  /** The `?genre=` suffix of the explore feeds in `api.js`: present whenever the genre is
      truthy, with the genre inserted as it is. */
  function GenreSuffix(genre: Value): string
  {
    if Truthy(genre) then "?genre=" + ToString(genre) else ""
  }

  /** `{ tab }`. */
  function TabBody(tab: Value): Value
  {
    Obj(map["tab" := tab])
  }

  /** The path of one book's details. */
  function BookPath(id: Value): string
  {
    BaseUrl + "/books/" + ToString(id)
  }

  /** The request each call sends. */
  function RequestOf(e: Endpoint): (r: Request)
    ensures r.verb == Post <==> e.Posts()
    ensures r.body.Some? <==> e.Posts()
    ensures e.Authenticated() ==> r.headers == AuthHeaders(e.Token())
    ensures !e.Authenticated() ==> r.headers == (if e.Posts() then [JsonContentType] else [])
    ensures BaseUrl <= r.url
  {
    match e
    case Signup(p) => Request(Post, BaseUrl + "/auth/signup", [JsonContentType], Some(p))
    case Login(p) => Request(Post, BaseUrl + "/auth/login", [JsonContentType], Some(p))
    case SearchBooks(q, t) =>
      Request(Get, BaseUrl + "/books/search?query=" + Uri.Encode(ToString(q)), AuthHeaders(t), None)
    case GetBookshelf(t) => Request(Get, BaseUrl + "/books/shelf", AuthHeaders(t), None)
    case AddBookToBookshelf(b, t) => Request(Post, BaseUrl + "/books/books", AuthHeaders(t), Some(b))
    case SetBookshelfTabPreference(tab, t) =>
      Request(Post, BaseUrl + "/books/tab", AuthHeaders(t), Some(TabBody(tab)))
    case GetBookDetails(id, page, limit) =>
      Request(Get, BookPath(id) + "?page=" + ToString(Default(page, Num(1)))
                   + "&limit=" + ToString(Default(limit, Num(10))), [], None)
    case CreateReview(p, t) => Request(Post, BaseUrl + "/reviews", AuthHeaders(t), Some(p))
    case GetTrendingBooks(g) => Request(Get, BaseUrl + "/explore/trending" + GenreSuffix(g), [], None)
    case GetRecentReviews(g) => Request(Get, BaseUrl + "/explore/recent-reviews" + GenreSuffix(g), [], None)
    case GetTopRatedBooks(g) => Request(Get, BaseUrl + "/explore/top-rated" + GenreSuffix(g), [], None)
    case SetExploreTabPreference(tab) =>
      Request(Post, BaseUrl + "/explore/tab", [JsonContentType], Some(TabBody(tab)))
    case GetPublicProfile(id) => Request(Get, BaseUrl + "/profile/" + ToString(id), [], None)
    case GetReadingHistory(t) => Request(Get, BaseUrl + "/history", AuthHeaders(t), None)
  }

  /** The search URL carries the query percent-encoded: the encoded part holds only
      unreserved characters, `%` and hex digits (so it cannot end the parameter or add
      another), and decoding it gives back the query exactly. */
  lemma SearchQueryEncoded(query: Value, token: Value)
    ensures var url := RequestOf(SearchBooks(query, token)).url;
            var prefix := BaseUrl + "/books/search?query=";
            && prefix <= url
            && Uri.Decode(url[|prefix|..]) == Some(ToString(query))
            && forall i :: |prefix| <= i < |url| ==>
                 url[i] != '&' && url[i] != '#' && url[i] != '=' && url[i] != ' '
  {
    var prefix := BaseUrl + "/books/search?query=";
    var enc := Uri.Encode(ToString(query));
    var url := prefix + enc;
    assert url[|prefix|..] == enc;
    Uri.DecodeEncode(ToString(query));
    Uri.EncodeAlphabet(ToString(query));
    forall i | |prefix| <= i < |url|
      ensures url[i] != '&' && url[i] != '#' && url[i] != '=' && url[i] != ' '
    {
      assert url[i] == enc[i - |prefix|];
      QuerySafe(enc[i - |prefix|]);
    }
  }

  /** No character of an encoding ends a query parameter or the URL. */
  lemma QuerySafe(c: char)
    requires Uri.Unreserved(c) || c == '%' || Uri.IsUpperHex(c)
    ensures c != '&' && c != '#' && c != '=' && c != ' '
  {
  }

  /** The URL of `getBookDetails` for the values the defaults produced. */
  lemma BookDetailsUrl(id: Value, page: Value, limit: Value)
    ensures RequestOf(GetBookDetails(id, page, limit)).url
            == BookPath(id) + "?page=" + ToString(Default(page, Num(1)))
               + "&limit=" + ToString(Default(limit, Num(10)))
  {
  }

  lemma DefaultPageAndLimit()
    ensures ToString(Default(Undefined, Num(1))) == "1"
    ensures ToString(Default(Undefined, Num(10))) == "10"
    ensures ToString(Default(Null, Num(1))) == "null"
  {
    assert Text.NatToString(10) == Text.NatToString(1) + [Text.DigitChar(0)];
  }

  /** `getBookDetails(id)` asks for page 1 of 10; an explicit `null` is not defaulted and
      is sent as the word `null`. */
  lemma BookDetailsDefaults(id: Value)
    ensures RequestOf(GetBookDetails(id, Undefined, Undefined)).url
            == BookPath(id) + "?page=1&limit=10"
    ensures RequestOf(GetBookDetails(id, Null, Undefined)).url
            == BookPath(id) + "?page=null&limit=10"
  {
    BookDetailsUrl(id, Undefined, Undefined);
    BookDetailsUrl(id, Null, Undefined);
    DefaultPageAndLimit();
    var head := BookPath(id);
    assert head + "?page=" + "1" + "&limit=" + "10" == head + "?page=1&limit=10";
    assert head + "?page=" + "null" + "&limit=" + "10" == head + "?page=null&limit=10";
  }

  /** The explore feeds of `api.js` carry `?genre=<genre>` exactly when the genre is
      truthy, without encoding and without any "All" sentinel. */
  lemma ApiGenreSuffix(genre: Value)
    ensures var url := RequestOf(GetTrendingBooks(genre)).url;
            var base := BaseUrl + "/explore/trending";
            && (Truthy(genre) ==> url == base + "?genre=" + ToString(genre))
            && (!Truthy(genre) ==> url == base)
    ensures RequestOf(GetRecentReviews(genre)).url
            == BaseUrl + "/explore/recent-reviews" + GenreSuffix(genre)
    ensures RequestOf(GetTopRatedBooks(genre)).url
            == BaseUrl + "/explore/top-rated" + GenreSuffix(genre)
    ensures Truthy(genre) <==> GenreSuffix(genre) != ""
  {
    assert RequestOf(GetTrendingBooks(genre)).url == BaseUrl + "/explore/trending" + GenreSuffix(genre);
    if Truthy(genre) {
      assert BaseUrl + "/explore/trending" + ("?genre=" + ToString(genre))
             == BaseUrl + "/explore/trending" + "?genre=" + ToString(genre);
    }
  }

  /** What the server answered: the fetch was rejected with a message, or a response
      arrived with its status, its body as text and its body parsed as JSON. */
  datatype Reply =
    | Failed(message: string)
    | Answered(ok: bool, status: int, text: string, json: Result<Value>)

  /** The common tail of every call: a rejected fetch propagates, a non-ok response throws
      an `Error` whose message is the response text, an ok one yields its JSON. */
  function Settle(reply: Reply): (r: Result<Value>)
    ensures r.Err? <==> reply.Failed? || !reply.ok || reply.json.Err?
    ensures reply.Answered? && !reply.ok ==> r == Err(reply.text)
    ensures reply.Answered? && reply.ok ==> r == reply.json
  {
    match reply
    case Failed(m) => Err(m)
    case Answered(ok, _, text, json) => if !ok then Err(text) else json
  }

  /** A call: the request it sends and what it settles to. */
  function Call(e: Endpoint, reply: Reply): (r: (Request, Result<Value>))
    ensures r.0 == RequestOf(e)
    ensures r.1 == Settle(reply)
  {
    (RequestOf(e), Settle(reply))
  }

  /** A non-ok answer is never turned into data, and there is no retry: the single reply
      decides the outcome, with the server's text as the error message. */
  lemma NonOkIsError(e: Endpoint, status: int, text: string, json: Result<Value>)
    ensures Call(e, Answered(false, status, text, json)).1 == Err(text)
  {
  }
}

=== FILE: auth_form.dfy ===
/** The tail shared by the login and signup forms' `handleSubmit` after the request
    settled with the server's `data`: store `data.token` under `'token'`, sign in with the
    identity `{ email, alias }` taken from `data.user`, and go to `/`. */
module AuthForm {
  import opened Js
  import Session

  /** What the tail did: the session afterwards, the message of the error it threw if it
      threw, and where it navigated. */
  datatype Completion = Completion(session: Session.State, thrown: Option<string>, navigate: Option<string>)

  /** The identity handed to `login`: exactly the user's `email` and `alias`. */
  function Identity(email: Value, alias: Value): (d: Value)
    ensures d.Obj? && d.fields.Keys == {"email", "alias"}
  {
    Obj(map["email" := email, "alias" := alias])
  }

  /** The session `login` leaves after a successful tail that started from `s`: the
      storage gains `'token'` (the token as text) and `'user'` (the stringified user), and
      the user is `{ email, alias, token }` with the email and alias read from
      `data.user` and the token from `data.token`. */
  predicate SignedInFrom(s: Session.State, data: Value, r: Session.State, stringify: Value -> string)
  {
    && data.Obj?
    && var token := Get(data.fields, "token");
       var u := OptMember(data, "user");
       && r.user.Obj?
       && r.user.fields.Keys == {"email", "alias", "token"}
       && r.user.fields["token"] == token
       && Member(u, "email") == Ok(r.user.fields["email"])
       && r.user.fields["alias"] == OptMember(u, "alias")
       && r.storage == s.storage["token" := ToString(token)]["user" := stringify(r.user)]
  }

  /** Reading `data.token` throws on a `null` body; the token is then written to storage
      (as text) before `data.user.email` is read, so a body without `user` leaves the token
      written, the user unchanged, and no navigation. */
  function SignIn(s: Session.State, data: Value, stringify: Value -> string): (r: Completion)
    ensures r.thrown.None? <==> r.navigate == Some("/")
    ensures r.navigate.None? ==> r.navigate != Some("/") && r.session.user == s.user
    ensures (data == Null || data == Undefined) ==> r == Completion(s, Some(TypeErrorMessage), None)
    ensures r.thrown.None? ==>
              && data.Obj?
              && "token" in r.session.storage
              && r.session.storage["token"] == ToString(Get(data.fields, "token"))
              && r.session.user.Obj?
              && r.session.user.fields.Keys == {"email", "alias", "token"}
              && r.session.user.fields["token"] == Get(data.fields, "token")
    ensures r.thrown.None? ==> SignedInFrom(s, data, r.session, stringify)
  {
    match Member(data, "token")
    case Err(m) => Completion(s, Some(m), None)
    case Ok(token) =>
      var written := s.(storage := s.storage["token" := ToString(token)]);
      var user := OptMember(data, "user");
      match Member(user, "email")
      case Err(m) => Completion(written, Some(m), None)
      case Ok(email) =>
        var alias := OptMember(user, "alias");
        Completion(Session.Login(written, token, Identity(email, alias), stringify), None, Some("/"))
  }

  /** The signed-in session carries the token the server sent and is authenticated
      exactly when that token is truthy. */
  lemma SignInAuthenticates(s: Session.State, data: Value, stringify: Value -> string)
    requires SignIn(s, data, stringify).thrown.None?
    ensures var r := SignIn(s, data, stringify);
            && data.Obj?
            && Session.Token(r.session) == Get(data.fields, "token")
            && (Session.IsAuthenticated(r.session) <==> Truthy(Get(data.fields, "token")))
  {
  }

  /** A body whose `user` is missing still writes the token: the storage then holds a
      token while the session has no user. */
  lemma TokenWrittenWithoutUser(s: Session.State, fields: map<string, Value>, stringify: Value -> string)
    requires "user" !in fields
    ensures var r := SignIn(s, Obj(fields), stringify);
            && r.thrown == Some(TypeErrorMessage)
            && r.session.user == s.user
            && r.session.storage == s.storage["token" := ToString(Get(fields, "token"))]
  {
  }
}

=== FILE: book_card.dfy ===
/** `BookCard.jsx`: which controls a book card shows and what pressing "Update Status"
    does. `isAuthenticated` is the session's flag; `onUpdate` is whether the parent passed
    a callback. */
module BookCard {
  import opened Js

  /** The props the rules read. `isBookshelfView` and `showReviewButton` default to false. */
  datatype Card = Card(googleBooksId: Value, status: Value, rating: Value,
                       isBookshelfView: bool, showReviewButton: bool)

  const Finished := Str("finished")

  const LoginRequired := "You must be logged in to change the book status."

  /** "Write a Review": on a finished book, when asked for and signed in. */
  predicate ReviewButtonShown(c: Card, authenticated: bool)
  {
    c.showReviewButton && StrictEquals(c.status, Finished) && authenticated
  }

  /** The status selector: on an unfinished book in the shelf view, when signed in. */
  predicate SelectorShown(c: Card, authenticated: bool)
  {
    !StrictEquals(c.status, Finished) && authenticated && c.isBookshelfView
  }

  /** "Rating: r / 5": whenever a rating prop is present, so a rating of 0 is shown. */
  predicate RatingLineShown(c: Card)
  {
    !StrictEquals(c.rating, Undefined)
  }

  /** The update button is disabled while the selected status is the current one. */
  predicate UpdateDisabled(c: Card, newStatus: Value)
  {
    StrictEquals(newStatus, c.status)
  }

  /** What pressing the update button does. */
  datatype Effect = Alert(text: string) | Update(argument: Value) | NoEffect

  /** `handleUpdateStatus` as written: signed out, an alert; otherwise the parent is called
      with `{ status: newStatus }` when there is a callback and the status changed. The
      argument names no book. */
  function UpdateStatus(c: Card, authenticated: bool, onUpdate: bool, newStatus: Value): (e: Effect)
    ensures !authenticated <==> e == Alert(LoginRequired)
    ensures e.Update? <==> authenticated && onUpdate && !UpdateDisabled(c, newStatus)
    ensures e.Update? ==> e.argument.Obj? && e.argument.fields == map["status" := newStatus]
    ensures e.Update? ==> Get(e.argument.fields, "googleBooksId") == Undefined
  {
    if !authenticated then Alert(LoginRequired)
    else if onUpdate && !StrictEquals(newStatus, c.status) then Update(Obj(map["status" := newStatus]))
    else NoEffect
  }

  /** The same handler with the card's id in the argument, so that the parent can tell
      which book changed: `{ googleBooksId, status: newStatus }`. */
  function UpdateStatusWithId(c: Card, authenticated: bool, onUpdate: bool, newStatus: Value): (e: Effect)
    ensures e.Update? <==> UpdateStatus(c, authenticated, onUpdate, newStatus).Update?
    ensures !e.Update? ==> e == UpdateStatus(c, authenticated, onUpdate, newStatus)
    ensures e.Update? ==> e.argument.Obj?
                          && e.argument.fields.Keys == {"googleBooksId", "status"}
                          && e.argument.fields["googleBooksId"] == c.googleBooksId
                          && e.argument.fields["status"] == newStatus
  {
    match UpdateStatus(c, authenticated, onUpdate, newStatus)
    case Update(_) => Update(Obj(map["googleBooksId" := c.googleBooksId, "status" := newStatus]))
    case other => other
  }

  /** The review button and the status selector never appear together, and a signed-out
      visitor sees neither. */
  lemma ReviewAndSelectorExclusive(c: Card, authenticated: bool)
    ensures !(ReviewButtonShown(c, authenticated) && SelectorShown(c, authenticated))
    ensures !authenticated ==> !ReviewButtonShown(c, authenticated) && !SelectorShown(c, authenticated)
  {
  }

  /** A signed-in press on an enabled button with a callback always reaches the parent; a
      press while disabled never does. */
  lemma EnabledButtonUpdates(c: Card, newStatus: Value)
    ensures !UpdateDisabled(c, newStatus) ==> UpdateStatus(c, true, true, newStatus).Update?
    ensures UpdateDisabled(c, newStatus) ==> UpdateStatus(c, true, true, newStatus) == NoEffect
  {
  }

  /** The rating line is hidden only for a missing rating: 0 and `null` are shown. */
  lemma RatingLineCases(c: Card)
    ensures RatingLineShown(c) <==> c.rating != Undefined
    ensures c.rating == Num(0) ==> RatingLineShown(c)
  {
  }
}

=== FILE: bookshelf_page.dfy ===
/** `BookshelfPage.jsx`: the shelf list and the add-book dialog as a state, and the
    handlers as transitions. Each request is an axios call whose outcome is a parameter;
    the Google Books id check is the boolean `validId`; the clock reading that becomes
    `finishedAt` is the string `now`. */
module BookshelfPage {
  import opened Js
  import Text
  import Api
  import BookCard

  const Base := "https://bookbrust-server.onrender.com"

  datatype Verb = HttpGet | HttpPost | HttpPatch

  /** An axios request: `params` are the query parameters axios appends to the URL. */
  datatype Request = Request(verb: Verb, url: string, headers: seq<Api.Header>,
                             params: seq<(string, Value)>, body: Option<Value>)

  /** How an axios call ended: with the response body, or rejected with `err.response`
      (`undefined` when no response arrived). */
  datatype Response = Resolved(data: Value) | Rejected(response: Value)

  /** `{ headers: { Authorization: \`Bearer ${token}\` } }`. */
  function Authorization(token: Value): (hs: seq<Api.Header>)
    ensures hs == [Api.AuthHeaders(token)[0]]
  {
    [Api.Header("Authorization", "Bearer " + ToString(token))]
  }

  /** `err.response?.data?.error || fallback`. */
  function ErrorText(response: Value, fallback: string): (v: Value)
    ensures Truthy(OptMember(OptMember(response, "data"), "error")) ==> v == OptMember(OptMember(response, "data"), "error")
    ensures !Truthy(OptMember(OptMember(response, "data"), "error")) ==> v == Str(fallback)
  {
    Or(OptMember(OptMember(response, "data"), "error"), Str(fallback))
  }

  /** The initial draft of the manual-add form. */
  const Draft: Object := map["status" := Str("want_to_read")]

  datatype State = State(
    shelf: Value, loading: bool, error: Value, tab: Value,
    addModalOpen: bool, newBook: Object,
    searchQuery: string, searchResults: Value, searchLoading: bool, searchError: Value)

  const Initial := State(Arr([]), false, Null, Str("reading"), false, Draft, "", Arr([]), false, Null)

  /** The tabs, in the order `statusLabels` lists them. */
  const Tabs := ["reading", "finished", "want_to_read"]

  /** One handler run: the state while its request is pending, the request (if any), the
      state at the end and the alert it raised (if any). */
  datatype Step = Step(pending: State, request: Option<Request>, state: State, alert: Option<string>)

  /** The shelf is loaded only for an authenticated session with a truthy token. */
  predicate ShouldLoad(authenticated: bool, token: Value)
  {
    authenticated && Truthy(token)
  }

  /** `fetchBookshelf`: the shelf of the current tab. A missing body gives `[]`; a failure
      sets the error and keeps the shelf. The error is never cleared here. */
  function FetchShelf(s: State, token: Value, r: Response): (t: Step)
    ensures t.pending == s.(loading := true) && t.alert.None?
    ensures t.request == Some(Request(HttpGet, Base + "/api/books/shelf", Authorization(token), [("status", s.tab)], None))
    ensures !t.state.loading && t.state.tab == s.tab
    ensures r.Resolved? ==> t.state == s.(shelf := Or(r.data, Arr([])), loading := false)
    ensures r.Rejected? ==> t.state == s.(error := ErrorText(r.response, "Failed to load bookshelf."), loading := false)
  {
    var pending := s.(loading := true);
    var request := Request(HttpGet, Base + "/api/books/shelf", Authorization(token), [("status", s.tab)], None);
    match r
    case Resolved(data) => Step(pending, Some(request), pending.(shelf := Or(data, Arr([])), loading := false), None)
    case Rejected(response) =>
      Step(pending, Some(request), pending.(error := ErrorText(response, "Failed to load bookshelf."), loading := false), None)
  }

  /** The shelf URL is the one the `api` client uses for the same list. */
  lemma ShelfUrlAgrees(token: Value)
    ensures Base + "/api/books/shelf" == Api.RequestOf(Api.GetBookshelf(token)).url
  {
  }

  /** Once a load has failed, a later successful load still leaves the error set, and the
      page keeps showing the error instead of the books. */
  lemma ErrorSurvivesReload(s: State, token: Value, response: Value, data: Value)
    ensures var failed := FetchShelf(s, token, Rejected(response)).state;
            var reloaded := FetchShelf(failed, token, Resolved(data)).state;
            Truthy(reloaded.error) && reloaded.error == failed.error
  {
  }

  /** `handleTabChange`: the tab switches at once; the preference is posted and a failure
      is only logged. */
  function TabChange(s: State, tab: Value, token: Value, r: Response): (t: Step)
    ensures t.state.tab == tab && t.alert.None?
    ensures t.request == Some(Request(HttpPost, Base + "/api/books/tab", Authorization(token), [], Some(Api.TabBody(tab))))
    ensures t.state.(tab := s.tab) == s
  {
    var switched := s.(tab := tab);
    Step(switched, Some(Request(HttpPost, Base + "/api/books/tab", Authorization(token), [], Some(Api.TabBody(tab)))), switched, None)
  }

  /** What the server answers to the preference never matters to the page. */
  lemma TabChangeIgnoresReply(s: State, tab: Value, token: Value, r1: Response, r2: Response)
    ensures TabChange(s, tab, token, r1) == TabChange(s, tab, token, r2)
  {
  }

  /** An entry is replaced when its `googleBooksId` is `===` to the update's. */
  predicate SameId(entry: Value, updated: Value)
  {
    StrictEquals(OptMember(entry, "googleBooksId"), OptMember(updated, "googleBooksId"))
  }

  /** `prev.map(b => b.googleBooksId === updated.googleBooksId ? updated : b)`. Reading the
      id of a `null` entry throws. */
  function Replace(items: seq<Value>, updated: Value): (r: Result<seq<Value>>)
    ensures r.Ok? <==> forall i :: 0 <= i < |items| ==> items[i] != Null && items[i] != Undefined
    ensures r.Err? ==> r == Err(TypeErrorMessage)
    ensures r.Ok? ==> |r.value| == |items|
    ensures r.Ok? ==> forall i :: 0 <= i < |items| ==>
                        (SameId(items[i], updated) ==> r.value[i] == updated)
                        && (!SameId(items[i], updated) ==> r.value[i] == items[i])
  {
    if items == [] then Ok([])
    else
      match Member(items[0], "googleBooksId")
      case Err(m) => Err(m)
      case Ok(_) =>
        match Replace(items[1..], updated)
        case Err(m) =>
          assert forall i :: 0 < i < |items| ==> items[i] == items[1..][i - 1];
          Err(m)
        case Ok(rest) =>
          assert forall i :: 0 < i < |items| ==> items[i] == items[1..][i - 1];
          Ok([if SameId(items[0], updated) then updated else items[0]] + rest)
  }

  /** Applying the same update twice is applying it once. */
  lemma ReplaceIdempotent(items: seq<Value>, updated: Value)
    requires updated.Obj?
    requires Replace(items, updated).Ok?
    ensures Replace(Replace(items, updated).value, updated) == Replace(items, updated)
  {
    var once := Replace(items, updated).value;
    assert forall i :: 0 <= i < |once| ==> once[i] != Null && once[i] != Undefined;
    var twice := Replace(once, updated).value;
    forall i | 0 <= i < |items|
      ensures twice[i] == once[i]
    {
      if SameId(items[i], updated) {
        assert SameId(once[i], updated) ==> twice[i] == updated;
      }
    }
  }

  /** The PATCH body: `finishedAt` is the clock reading exactly when the new status is
      `"finished"`, otherwise `null`. */
  function PatchBody(updated: Object, now: string): (v: Value)
    ensures v.Obj? && v.fields.Keys == {"status", "rating", "notes", "finishedAt"}
    ensures v.fields["status"] == Get(updated, "status")
    ensures StrictEquals(Get(updated, "status"), BookCard.Finished) <==> v.fields["finishedAt"] == Str(now)
    ensures !StrictEquals(Get(updated, "status"), BookCard.Finished) <==> v.fields["finishedAt"] == Null
  {
    Obj(map["status" := Get(updated, "status"), "rating" := Get(updated, "rating"),
            "notes" := Get(updated, "notes"),
            "finishedAt" := if StrictEquals(Get(updated, "status"), BookCard.Finished) then Str(now) else Null])
  }

  /** `handleUpdateBook(updated)`: PATCH the status, then replace the matching entries;
      on failure alert the server's error or "Failed to update book". A shelf that is not
      an array cannot be mapped and throws. */
  function UpdateBook(s: State, updated: Object, token: Value, now: string, r: Response): (t: Result<Step>)
    ensures t.Ok? ==> t.value.pending == s
    ensures t.Ok? ==>
              t.value.request == Some(Request(HttpPatch, Base + "/api/books/tab/" + ToString(Get(updated, "status")),
                           Authorization(token), [], Some(PatchBody(updated, now))))
    ensures r.Rejected? ==> t.Ok? && t.value.state == s
                            && t.value.alert == Some(ToString(ErrorText(r.response, "Failed to update book")))
    ensures r.Resolved? ==>
              (t.Ok? <==> s.shelf.Arr? && Replace(s.shelf.items, Obj(updated)).Ok?)
              && (t.Ok? ==> t.value.alert.None?
                            && t.value.state == s.(shelf := Arr(Replace(s.shelf.items, Obj(updated)).value)))
  {
    var request := Request(HttpPatch, Base + "/api/books/tab/" + ToString(Get(updated, "status")),
                           Authorization(token), [], Some(PatchBody(updated, now)));
    match r
    case Rejected(response) =>
      Ok(Step(s, Some(request), s, Some(ToString(ErrorText(response, "Failed to update book")))))
    case Resolved(_) =>
      if !s.shelf.Arr? then Err(TypeErrorMessage)
      else
        match Replace(s.shelf.items, Obj(updated))
        case Err(m) => Err(m)
        case Ok(items) => Ok(Step(s, Some(request), s.(shelf := Arr(items)), None))
  }

  /** An update without an id matches only the entries without one: on a shelf whose
      entries all carry an id it changes nothing. */
  lemma IdlessUpdateChangesNothing(items: seq<Value>, arg: Value)
    requires forall i :: 0 <= i < |items| ==> items[i].Obj? && Get(items[i].fields, "googleBooksId") != Undefined
    requires OptMember(arg, "googleBooksId") == Undefined
    ensures Replace(items, arg) == Ok(items)
  {
    var r := Replace(items, arg);
    assert r.Ok?;
    forall i | 0 <= i < |items|
      ensures r.value[i] == items[i]
    {
      assert OptMember(items[i], "googleBooksId") != Undefined;
      assert !SameId(items[i], arg);
    }
    assert r.value == items;
  }

  /** The card's own argument, `{ status }`, matches exactly the entries that have no
      `googleBooksId`: on a shelf whose entries all carry an id, the update changes
      nothing, whatever the new status. */
  lemma CardUpdateChangesNothing(items: seq<Value>, c: BookCard.Card, newStatus: Value)
    requires forall i :: 0 <= i < |items| ==> items[i].Obj? && Get(items[i].fields, "googleBooksId") != Undefined
    requires BookCard.UpdateStatus(c, true, true, newStatus).Update?
    ensures Replace(items, BookCard.UpdateStatus(c, true, true, newStatus).argument) == Ok(items)
  {
    var arg := BookCard.UpdateStatus(c, true, true, newStatus).argument;
    assert OptMember(arg, "googleBooksId") == Undefined;
    IdlessUpdateChangesNothing(items, arg);
  }

  /** A one-book shelf where the reader moves book "a" from reading to finished: the
      shelf still says reading afterwards. */
  lemma CardUpdateExample()
    ensures var entry := Obj(map["googleBooksId" := Str("a"), "status" := Str("reading")]);
            var c := BookCard.Card(Str("a"), Str("reading"), Undefined, true, false);
            var e := BookCard.UpdateStatus(c, true, true, Str("finished"));
            && e.Update?
            && Replace([entry], e.argument) == Ok([entry])
            && Get(Replace([entry], e.argument).value[0].fields, "status") == Str("reading")
  {
    var entry := Obj(map["googleBooksId" := Str("a"), "status" := Str("reading")]);
    var c := BookCard.Card(Str("a"), Str("reading"), Undefined, true, false);
    CardUpdateChangesNothing([entry], c, Str("finished"));
  }

  /** With the id in the argument the update reaches the card's book: every entry with
      the card's (string) id now has the new status, and no other entry changes. */
  lemma CardUpdateWithIdReachesBook(items: seq<Value>, c: BookCard.Card, newStatus: Value)
    requires c.googleBooksId.Str?
    requires forall i :: 0 <= i < |items| ==> items[i] != Null && items[i] != Undefined
    requires BookCard.UpdateStatusWithId(c, true, true, newStatus).Update?
    ensures var r := Replace(items, BookCard.UpdateStatusWithId(c, true, true, newStatus).argument);
            && r.Ok? && |r.value| == |items|
            && forall i :: 0 <= i < |items| ==>
                 (StrictEquals(OptMember(items[i], "googleBooksId"), c.googleBooksId) ==>
                    r.value[i].Obj? && Get(r.value[i].fields, "status") == newStatus
                    && Get(r.value[i].fields, "googleBooksId") == c.googleBooksId)
                 && (!StrictEquals(OptMember(items[i], "googleBooksId"), c.googleBooksId) ==>
                    r.value[i] == items[i])
  {
    var arg := BookCard.UpdateStatusWithId(c, true, true, newStatus).argument;
    assert OptMember(arg, "googleBooksId") == c.googleBooksId;
  }

  /** Pressing "Update Status" on a shelf card, with the card sending its id. */
  function CardStatusChange(s: State, c: BookCard.Card, authenticated: bool, newStatus: Value,
                            token: Value, now: string, r: Response): (t: Result<Step>)
    ensures !authenticated ==> t == Ok(Step(s, None, s, Some(BookCard.LoginRequired)))
    ensures BookCard.UpdateDisabled(c, newStatus) ==> t.Ok? && t.value.request.None? && t.value.state == s
    ensures t.Ok? && t.value.request.Some? ==>
              authenticated
              && t.value.request.value.body == Some(PatchBody(map["googleBooksId" := c.googleBooksId, "status" := newStatus], now))
  {
    match BookCard.UpdateStatusWithId(c, authenticated, true, newStatus)
    case Alert(text) => Ok(Step(s, None, s, Some(text)))
    case NoEffect => Ok(Step(s, None, s, None))
    case Update(arg) => UpdateBook(s, arg.fields, token, now, r)
  }

  /** `handleSearchBooks`: a blank query does nothing; otherwise the trimmed query is sent
      with the error cleared, and a failure shows the error and empties the results. */
  function Search(s: State, token: Value, r: Response): (t: Step)
    ensures Text.AllSpace(s.searchQuery) ==> t == Step(s, None, s, None)
    ensures !Text.AllSpace(s.searchQuery) ==>
              && t.pending == s.(searchLoading := true, searchError := Null)
              && t.request == Some(Request(HttpGet, Base + "/api/books/search", Authorization(token),
                                           [("query", Str(Text.Trim(s.searchQuery)))], None))
              && !t.state.searchLoading
              && (r.Resolved? ==> t.state.searchResults == r.data && t.state.searchError == Null)
              && (r.Rejected? ==> t.state.searchResults == Arr([])
                                  && t.state.searchError == ErrorText(r.response, "Failed to search books"))
    ensures t.state.shelf == s.shelf && t.state.searchQuery == s.searchQuery && t.alert.None?
  {
    var q := Text.Trim(s.searchQuery);
    if q == "" then Step(s, None, s, None)
    else
      var pending := s.(searchLoading := true, searchError := Null);
      var request := Request(HttpGet, Base + "/api/books/search", Authorization(token), [("query", Str(q))], None);
      match r
      case Resolved(data) => Step(pending, Some(request), pending.(searchResults := data, searchLoading := false), None)
      case Rejected(response) =>
        Step(pending, Some(request),
             pending.(searchError := ErrorText(response, "Failed to search books"),
                      searchResults := Arr([]), searchLoading := false), None)
  }

  /** The search sends the query without its surrounding white space, and nothing but
      white space never reaches the server. */
  lemma SearchSendsTrimmedQuery(s: State, token: Value, r: Response)
    ensures var t := Search(s, token, r);
            t.request.Some? <==> Text.Trim(s.searchQuery) != ""
    ensures var t := Search(s, token, r);
            t.request.Some? ==> var q := t.request.value.params[0].1;
              q.Str? && q.s != "" && !Text.IsSpace(q.s[0]) && !Text.IsSpace(q.s[|q.s| - 1])
  {
  }

  /** The body of the add request: the book's fields, with `genres` defaulting to `[]`. */
  function AddBody(book: Value): (v: Value)
    ensures v.Obj? && v.fields.Keys == {"googleBooksId", "status", "rating", "notes", "title",
                                        "authors", "cover", "description", "genres"}
    ensures forall k :: k in v.fields && k != "genres" ==> v.fields[k] == OptMember(book, k)
    ensures v.fields["genres"] == Or(OptMember(book, "genres"), Arr([]))
  {
    Obj(map["googleBooksId" := OptMember(book, "googleBooksId"), "status" := OptMember(book, "status"),
            "rating" := OptMember(book, "rating"), "notes" := OptMember(book, "notes"),
            "title" := OptMember(book, "title"), "authors" := OptMember(book, "authors"),
            "cover" := OptMember(book, "cover"), "description" := OptMember(book, "description"),
            "genres" := Or(OptMember(book, "genres"), Arr([]))])
  }

  /** `[...prev]`: an array's elements, a string's characters; anything else is not
      iterable. */
  function Elements(v: Value): (r: Result<seq<Value>>)
    ensures r.Ok? <==> v.Arr? || v.Str?
    ensures v.Arr? ==> r == Ok(v.items)
    ensures v.Str? ==> |r.value| == |v.s|
  {
    match v
    case Arr(items) => Ok(items)
    case Str(s) => Ok(seq(|s|, i requires 0 <= i < |s| => Str([s[i]])))
    case _ => Err("object is not iterable")
  }

  const IdRequired := "googleBooksId is required to add a book."

  /** `handleAddBook(book)`: without a truthy id, an alert and no request. Otherwise the
      book is posted; the response is appended at the end of the shelf and the dialog is
      reset (closed, no results, empty query, fresh draft). A failure alerts and changes
      nothing. Reading the id of a `null` book throws. */
  function AddBook(s: State, book: Value, token: Value, r: Response): (t: Result<Step>)
    ensures (book == Null || book == Undefined) ==> t == Err(TypeErrorMessage)
    ensures book != Null && book != Undefined && !Truthy(OptMember(book, "googleBooksId")) ==>
              t == Ok(Step(s, None, s, Some(IdRequired)))
    ensures t.Ok? && t.value.request.Some? ==>
              t.value.request.value == Request(HttpPost, Base + "/api/books/books", Authorization(token), [], Some(AddBody(book)))
    ensures t.Ok? && t.value.request.Some? && r.Resolved? ==>
              && Elements(s.shelf).Ok?
              && t.value.state == s.(shelf := Arr(Elements(s.shelf).value + [r.data]), addModalOpen := false,
                                     searchResults := Arr([]), searchQuery := "", newBook := Draft)
              && t.value.alert.None?
    ensures t.Ok? && r.Rejected? ==> t.value.state == s
  {
    match Member(book, "googleBooksId")
    case Err(m) => Err(m)
    case Ok(id) =>
      if !Truthy(id) then Ok(Step(s, None, s, Some(IdRequired)))
      else
        var request := Request(HttpPost, Base + "/api/books/books", Authorization(token), [], Some(AddBody(book)));
        match r
        case Rejected(response) =>
          Ok(Step(s, Some(request), s, Some(ToString(ErrorText(response, "Failed to add book")))))
        case Resolved(data) =>
          match Elements(s.shelf)
          case Err(m) => Err(m)
          case Ok(prev) =>
            Ok(Step(s, Some(request),
                    s.(shelf := Arr(prev + [data]), addModalOpen := false, searchResults := Arr([]),
                       searchQuery := "", newBook := Draft), None))
  }

  /** A successful add grows an array shelf by one, keeps the old entries in front and
      puts the server's record last. */
  lemma AddAppends(s: State, book: Value, token: Value, data: Value)
    requires s.shelf.Arr?
    requires AddBook(s, book, token, Resolved(data)).Ok?
    requires AddBook(s, book, token, Resolved(data)).value.request.Some?
    ensures var shelf := AddBook(s, book, token, Resolved(data)).value.state.shelf;
            && shelf.Arr? && |shelf.items| == |s.shelf.items| + 1
            && shelf.items[..|s.shelf.items|] == s.shelf.items
            && shelf.items[|s.shelf.items|] == data
  {
    var shelf := AddBook(s, book, token, Resolved(data)).value.state.shelf;
    assert shelf.items == s.shelf.items + [data];
  }

  const MissingFields := "Please provide Google Books ID and title"
  const InvalidId := "Invalid Google Books ID"

  /** `handleManualAdd`: the draft needs a truthy id and a truthy title, and the id must
      pass the Google Books check (`validId`); then it is added like a search result. */
  function ManualAdd(s: State, validId: bool, token: Value, r: Response): (t: Result<Step>)
    ensures !Truthy(Get(s.newBook, "googleBooksId")) || !Truthy(Get(s.newBook, "title")) ==>
              t == Ok(Step(s, None, s, Some(MissingFields)))
    ensures Truthy(Get(s.newBook, "googleBooksId")) && Truthy(Get(s.newBook, "title")) && !validId ==>
              t == Ok(Step(s, None, s, Some(InvalidId)))
    ensures t.Ok? && t.value.request.Some? ==>
              validId && t.value.request.value.body == Some(AddBody(Obj(s.newBook)))
  {
    var draft := Obj(s.newBook);
    if !Truthy(Get(s.newBook, "googleBooksId")) || !Truthy(Get(s.newBook, "title")) then
      Ok(Step(s, None, s, Some(MissingFields)))
    else if !validId then Ok(Step(s, None, s, Some(InvalidId)))
    else AddBook(s, draft, token, r)
  }

  /** The authors field: `text.split(',').map(a => a.trim())`. */
  function AuthorsField(text: string): (authors: seq<string>)
    ensures |authors| == Text.Count(text, ',') + 1
    ensures forall i :: 0 <= i < |authors| ==>
              authors[i] == Text.Trim(Text.Split(text, ',')[i]) && ',' !in authors[i]
  {
    var parts := Text.Split(text, ',');
    forall i | 0 <= i < |parts|
      ensures ',' !in Text.Trim(parts[i])
    {
      TrimWithin(parts[i], ',');
    }
    seq(|parts|, i requires 0 <= i < |parts| => Text.Trim(parts[i]))
  }

  /** `trim` only removes characters: a character absent from `s` is absent from its
      trimmed form. */
  lemma TrimWithin(s: string, c: char)
    requires c !in s
    ensures c !in Text.Trim(s)
  {
    var r := Text.Trim(s);
    var a := Text.LeadingSpace(s);
    if a < |s| {
      var t := s[a..];
      assert r == t[..|t| - Text.TrailingSpace(t)];
      forall k | 0 <= k < |r|
        ensures r[k] != c
      {
        assert r[k] == s[a + k];
      }
    }
  }

  /** Every part after the first, with the space that `join(', ')` puts before it. */
  function Spaced(parts: seq<string>): (r: seq<string>)
    ensures |r| == |parts|
    ensures forall i :: 0 <= i < |parts| ==> r[i] == [' '] + parts[i]
  {
    seq(|parts|, i requires 0 <= i < |parts| => [' '] + parts[i])
  }

  /** `parts.join(', ')` is `parts.join(',')` with a space before every part but the first. */
  lemma {:induction false} JoinCommaSpace(parts: seq<string>)
    requires |parts| >= 1
    ensures Text.Join(parts, ", ") == Text.Join([parts[0]] + Spaced(parts[1..]), [','])
  {
    if |parts| > 1 {
      var tail := parts[1..];
      JoinCommaSpace(tail);
      var spacedTail := [[' '] + tail[0]] + Spaced(tail[1..]);
      assert Spaced(tail) == spacedTail;
      assert [tail[0]] + Spaced(tail[1..]) == [tail[0]] + Spaced(tail[1..]);
      assert Text.Join(spacedTail, [',']) == [' '] + Text.Join([tail[0]] + Spaced(tail[1..]), [',']) by {
        if |tail| > 1 {
          assert ([tail[0]] + Spaced(tail[1..]))[1..] == Spaced(tail[1..]);
          assert spacedTail[1..] == Spaced(tail[1..]);
        }
      }
      var whole := [parts[0]] + Spaced(tail);
      assert whole[1..] == spacedTail;
      assert Text.Join(parts, ", ") == parts[0] + ", " + Text.Join(tail, ", ");
    }
  }

  /** Splitting a `join(', ')` of comma-free names at the commas gives the names, each
      after the first with its leading space. */
  lemma SplitCommaSpace(authors: seq<string>)
    requires |authors| >= 1
    requires forall i :: 0 <= i < |authors| ==> ',' !in authors[i]
    ensures Text.Split(Text.Join(authors, ", "), ',') == [authors[0]] + Spaced(authors[1..])
  {
    var parts := [authors[0]] + Spaced(authors[1..]);
    JoinCommaSpace(authors);
    forall i | 0 <= i < |parts|
      ensures ',' !in parts[i]
    {
      if i > 0 {
        assert parts[i] == [' '] + authors[i];
      }
    }
    Text.SplitJoin(parts, ',');
  }

  /** Reading the field back trims each part: parts that are the names, each after
      the first with one leading space, give back the names. */
  lemma TrimSpacedParts(text: string, authors: seq<string>)
    requires |authors| >= 1
    requires forall i :: 0 <= i < |authors| ==> Text.Tight(authors[i])
    requires Text.Split(text, ',') == [authors[0]] + Spaced(authors[1..])
    ensures AuthorsField(text) == authors
  {
    var parts := Text.Split(text, ',');
    var r := AuthorsField(text);
    forall i | 0 <= i < |authors|
      ensures r[i] == authors[i]
    {
      Text.TrimTight(authors[i]);
      if i > 0 {
        assert parts[i] == [' '] + authors[i];
        Text.TrimAfterSpace(authors[i]);
      }
    }
  }

  /** Showing a list of authors in the field (`authors.join(', ')`) and reading the field
      back gives the same list, for names that hold no comma and no surrounding space. */
  lemma AuthorsRoundTrip(authors: seq<string>)
    requires |authors| >= 1
    requires forall i :: 0 <= i < |authors| ==> ',' !in authors[i] && Text.Tight(authors[i])
    ensures AuthorsField(Text.Join(authors, ", ")) == authors
  {
    SplitCommaSpace(authors);
    TrimSpacedParts(Text.Join(authors, ", "), authors);
  }
}

=== FILE: explore_api.dfy ===
/** The explore feeds of `exploreApi.js`: the URL with its genre filter, the fixed error
    message of each endpoint, the empty-list fallback, and the decoding of `authors` and
    `genres` fields that the server may send as JSON text. `JSON.parse` is the parameter
    `parse`: the model never assumes what it returns. */
module ExploreApi {
  import opened Js
  import Text
  import Uri
  import Api

  const ExploreBase := Api.BaseUrl + "/explore"

  datatype Feed = Trending | RecentReviews | TopRated

  function FeedPath(f: Feed): string
  {
    match f
    case Trending => "/trending"
    case RecentReviews => "/recent-reviews"
    case TopRated => "/top-rated"
  }

  /** The message thrown when the server answers with a non-ok status. */
  function FailureMessage(f: Feed): string
  {
    match f
    case Trending => "Failed to fetch trending books"
    case RecentReviews => "Failed to fetch recent reviews"
    case TopRated => "Failed to fetch top-rated books"
  }

  /** The genre filters the feed when it is truthy and not the "All" sentinel. */
  predicate Filters(genre: Value)
  {
    Truthy(genre) && !StrictEquals(genre, Str("All"))
  }

  /** The query suffix: empty without a filter, else `?genre=` and the encoded genre,
      which decodes back to the genre as a string. */
  function GenreQuery(genre: Value): (q: string)
    ensures q == "" <==> !Filters(genre)
    ensures q != "" ==> |q| >= 7 && q[..7] == "?genre=" && Uri.Decode(q[7..]) == Some(ToString(genre))
  {
    if Filters(genre) then
      var q := "?genre=" + Uri.Encode(ToString(genre));
      Uri.DecodeEncode(ToString(genre));
      assert q[7..] == Uri.Encode(ToString(genre));
      q
    else ""
  }

  function FeedUrl(f: Feed, genre: Value): string
  {
    ExploreBase + FeedPath(f) + GenreQuery(genre)
  }

  /** "All", the empty string, `null` and `undefined` all ask for the unfiltered feed. */
  lemma UnfilteredGenres(f: Feed)
    ensures FeedUrl(f, Str("All")) == ExploreBase + FeedPath(f)
    ensures FeedUrl(f, Str("")) == ExploreBase + FeedPath(f)
    ensures FeedUrl(f, Null) == ExploreBase + FeedPath(f)
    ensures FeedUrl(f, Undefined) == ExploreBase + FeedPath(f)
  {
  }

  /** The two clients of the same feeds disagree on "All": `api.js` sends `?genre=All`,
      this one sends no filter. For a genre other than "All" made of characters that need
      no escaping they send the same URL. */
  lemma ApiAndExploreUrls(g: string)
    ensures g == "All" ==>
              Api.RequestOf(Api.GetTrendingBooks(Str(g))).url != FeedUrl(Trending, Str(g))
    ensures g != "" && g != "All" && (forall i :: 0 <= i < |g| ==> Uri.Unreserved(g[i])) ==>
              Api.RequestOf(Api.GetTrendingBooks(Str(g))).url == FeedUrl(Trending, Str(g))
  {
    var apiUrl := Api.RequestOf(Api.GetTrendingBooks(Str(g))).url;
    assert apiUrl == Api.BaseUrl + "/explore/trending" + Api.GenreSuffix(Str(g));
    assert Api.BaseUrl + "/explore/trending" == ExploreBase + FeedPath(Trending);
    if g == "All" {
      assert |apiUrl| > |FeedUrl(Trending, Str(g))|;
    }
    if g != "" && g != "All" && (forall i :: 0 <= i < |g| ==> Uri.Unreserved(g[i])) {
      Uri.EncodeUnreserved(g);
    }
  }

  /** `item.authors` / `item.genres` after decoding: JSON text is parsed, every other
      value is kept as it is. */
  function DecodeField(v: Value, parse: string -> Result<Value>): (r: Result<Value>)
    ensures !v.Str? ==> r == Ok(v)
    ensures v.Str? ==> r == parse(v.s)
  {
    if v.Str? then parse(v.s) else Ok(v)
  }

  /** `{ ...item, authors: …, genres: … }`: the item's own fields with `authors` and
      `genres` decoded. Reading a field of a `null` item throws, and so does a parse error,
      the `authors` field being evaluated first. */
  function Normalise(item: Value, parse: string -> Result<Value>): (r: Result<Value>)
    ensures (item == Null || item == Undefined) ==> r == Err(TypeErrorMessage)
    ensures r.Ok? <==> item != Null && item != Undefined
                       && DecodeField(OptMember(item, "authors"), parse).Ok?
                       && DecodeField(OptMember(item, "genres"), parse).Ok?
    ensures r.Ok? ==> r.value.Obj?
                      && r.value.fields.Keys == Spread(item).Keys + {"authors", "genres"}
                      && r.value.fields["authors"] == DecodeField(OptMember(item, "authors"), parse).value
                      && r.value.fields["genres"] == DecodeField(OptMember(item, "genres"), parse).value
                      && forall k :: k in Spread(item) && k != "authors" && k != "genres" ==>
                           r.value.fields[k] == Spread(item)[k]
  {
    match Member(item, "authors")
    case Err(m) => Err(m)
    case Ok(authors) =>
      match DecodeField(authors, parse)
      case Err(m) => Err(m)
      case Ok(a) =>
        match DecodeField(OptMember(item, "genres"), parse)
        case Err(m) => Err(m)
        case Ok(g) => Ok(Obj(Spread(item)["authors" := a]["genres" := g]))
  }

  /** Decoding is idempotent when the decoder never produces a string: normalising a
      normalised item changes nothing. */
  lemma NormaliseIdempotent(item: Value, parse: string -> Result<Value>)
    requires forall s :: parse(s).Ok? ==> !parse(s).value.Str?
    requires Normalise(item, parse).Ok?
    ensures Normalise(Normalise(item, parse).value, parse) == Normalise(item, parse)
  {
    var v := Normalise(item, parse).value;
    var f := v.fields;
    assert OptMember(v, "authors") == f["authors"];
    assert OptMember(v, "genres") == f["genres"];
    assert f["authors" := f["authors"]]["genres" := f["genres"]] == f;
  }

  /** `data.map(normalise)`: every item normalised, in order, or the first item's error. */
  function NormaliseAll(items: seq<Value>, parse: string -> Result<Value>): (r: Result<seq<Value>>)
    ensures r.Ok? <==> forall i :: 0 <= i < |items| ==> Normalise(items[i], parse).Ok?
    ensures r.Ok? ==> |r.value| == |items|
                      && forall i :: 0 <= i < |items| ==> r.value[i] == Normalise(items[i], parse).value
    ensures r.Err? ==> exists i :: 0 <= i < |items| && Normalise(items[i], parse).Err?
                                   && r == Err(Normalise(items[i], parse).message)
                                   && forall j :: 0 <= j < i ==> Normalise(items[j], parse).Ok?
  {
    if items == [] then Ok([])
    else
      match Normalise(items[0], parse)
      case Err(m) => Err(m)
      case Ok(v) =>
        match NormaliseAll(items[1..], parse)
        case Err(m) =>
          assert forall i :: 0 < i < |items| ==> items[i] == items[1..][i - 1];
          Err(m)
        case Ok(vs) =>
          assert forall i :: 0 < i < |items| ==> items[i] == items[1..][i - 1];
          Ok([v] + vs)
  }

  /** One feed: the request it sends and what it resolves to. A rejected fetch or an
      unreadable body propagates its own error; a non-ok status throws the feed's fixed
      message; an ok body that is not a non-empty array gives `[]`; reviews come back as
      sent; books are normalised. */
  function Fetch(f: Feed, reply: Api.Reply, parse: string -> Result<Value>): (r: Result<seq<Value>>)
    ensures reply.Answered? && !reply.ok ==> r == Err(FailureMessage(f))
    ensures reply.Failed? ==> r == Err(reply.message)
    ensures reply.Answered? && reply.ok && reply.json.Ok? && f != RecentReviews && reply.json.value.Arr? ==>
              r == (if reply.json.value.items == [] then Ok([]) else NormaliseAll(reply.json.value.items, parse))
  {
    match reply
    case Failed(m) => Err(m)
    case Answered(ok, _, _, json) =>
      if !ok then Err(FailureMessage(f))
      else
        match json
        case Err(m) => Err(m)
        case Ok(data) =>
          if !data.Arr? || |data.items| == 0 then Ok([])
          else if f == RecentReviews then Ok(data.items)
          else NormaliseAll(data.items, parse)
  }

  function FeedRequest(f: Feed, genre: Value): Api.Request
  {
    Api.Request(Api.Get, FeedUrl(f, genre), [], None)
  }

  /** A body that is not a non-empty array yields `[]` and never an error, on every feed. */
  lemma EmptyFallback(f: Feed, status: int, text: string, data: Value, parse: string -> Result<Value>)
    requires !data.Arr? || data.items == []
    ensures Fetch(f, Api.Answered(true, status, text, Ok(data)), parse) == Ok([])
  {
  }

  /** Recent reviews are returned exactly as the server sent them. */
  lemma ReviewsUnchanged(status: int, text: string, items: seq<Value>, parse: string -> Result<Value>)
    requires items != []
    ensures Fetch(RecentReviews, Api.Answered(true, status, text, Ok(Arr(items))), parse) == Ok(items)
  {
  }

  /** Books keep their number and every field other than `authors` and `genres`; fields
      that are not strings pass through undecoded. */
  lemma BooksKeepFields(f: Feed, status: int, text: string, items: seq<Value>, parse: string -> Result<Value>)
    requires f != RecentReviews
    ensures var r := Fetch(f, Api.Answered(true, status, text, Ok(Arr(items))), parse);
            r.Ok? ==>
              && |r.value| == |items|
              && forall i, k :: 0 <= i < |items| && k in Spread(items[i]) ==>
                   k in r.value[i].fields
                   && (k != "authors" && k != "genres" ==> r.value[i].fields[k] == Spread(items[i])[k])
                   && (k == "authors" && !Spread(items[i])[k].Str? ==> r.value[i].fields[k] == Spread(items[i])[k])
                   && (k == "genres" && !Spread(items[i])[k].Str? ==> r.value[i].fields[k] == Spread(items[i])[k])
  {
    var r := Fetch(f, Api.Answered(true, status, text, Ok(Arr(items))), parse);
    if r.Ok? && items != [] {
      forall i, k | 0 <= i < |items| && k in Spread(items[i])
        ensures k in r.value[i].fields
      {
        assert r.value[i] == Normalise(items[i], parse).value;
      }
    }
  }

  /** `updateExploreTabPreference(tab)`: posts `{ tab }`; a non-ok status throws the fixed
      message. */
  function UpdateTabPreference(tab: Value, reply: Api.Reply): (r: (Api.Request, Result<Value>))
    ensures r.0.verb == Api.Post && r.0.body == Some(Api.TabBody(tab))
    ensures r.0.url == ExploreBase + "/tab" && r.0.headers == [Api.JsonContentType]
    ensures reply.Answered? && !reply.ok ==> r.1 == Err("Failed to update tab preference")
    ensures reply.Answered? && reply.ok ==> r.1 == reply.json
    ensures r.1.Err? <==> reply.Failed? || !reply.ok || reply.json.Err?
  {
    var req := Api.Request(Api.Post, ExploreBase + "/tab", [Api.JsonContentType], Some(Api.TabBody(tab)));
    match reply
    case Failed(m) => (req, Err(m))
    case Answered(ok, _, _, json) =>
      if !ok then (req, Err("Failed to update tab preference")) else (req, json)
  }
}

=== FILE: explore_page.dfy ===
/** `explorePage.jsx`: the tab and genre restored from cookies, and `fetchData`, which
    records both in cookies, loads the feed of the tab into `books` or `reviews`, and
    then posts the tab preference. Cookies are a map; `getCookie` of a missing cookie is
    modelled as `undefined`. */
module ExplorePage {
  import opened Js
  import Text
  import Api
  import ExploreApi
  import BookCard

  type Cookies = map<string, string>

  datatype State = State(tab: string, genre: string, books: seq<Value>, reviews: seq<Value>,
                         error: Option<string>, loading: bool)

  /** `getCookie(name) || fallback`: the cookie when it is a non-empty string. */
  function CookieOr(cookies: Cookies, name: string, fallback: string): (v: string)
    ensures name in cookies && cookies[name] != "" ==> v == cookies[name]
    ensures !(name in cookies && cookies[name] != "") ==> v == fallback
  {
    if name in cookies && cookies[name] != "" then cookies[name] else fallback
  }

  /** The initial state: the saved tab or "trending", the saved genre or "All", empty
      lists, no error, not loading. */
  function Init(cookies: Cookies): (s: State)
    ensures s.tab == CookieOr(cookies, "exploreTab", "trending")
    ensures s.genre == CookieOr(cookies, "exploreGenre", "All")
    ensures s.books == [] && s.reviews == [] && s.error.None? && !s.loading
  {
    State(CookieOr(cookies, "exploreTab", "trending"), CookieOr(cookies, "exploreGenre", "All"), [], [], None, false)
  }

  /** The feed a tab loads; any other tab loads nothing. */
  function FeedOf(tab: string): (f: Option<ExploreApi.Feed>)
    ensures f == Some(ExploreApi.Trending) <==> tab == "trending"
    ensures f == Some(ExploreApi.RecentReviews) <==> tab == "new-reviews"
    ensures f == Some(ExploreApi.TopRated) <==> tab == "top-rated"
  {
    if tab == "trending" then Some(ExploreApi.Trending)
    else if tab == "new-reviews" then Some(ExploreApi.RecentReviews)
    else if tab == "top-rated" then Some(ExploreApi.TopRated)
    else None
  }

  const Fallback := "An error occurred while fetching data"

  /** One `fetchData` run: the cookies after it, the state while it waits, the requests
      it sent in order, and the state at the end. */
  datatype Run = Run(cookies: Cookies, pending: State, requests: seq<Api.Request>, state: State)

  /** The lists after a loaded feed: trending and top-rated fill `books` and empty
      `reviews`, new reviews the other way round, and an unknown tab touches neither. */
  function Show(s: State, f: Option<ExploreApi.Feed>, data: seq<Value>): (t: State)
    ensures f == Some(ExploreApi.RecentReviews) ==> t.reviews == data && t.books == []
    ensures f.Some? && f != Some(ExploreApi.RecentReviews) ==> t.books == data && t.reviews == []
    ensures f.None? ==> t == s
    ensures t.tab == s.tab && t.genre == s.genre && t.error == s.error && t.loading == s.loading
  {
    if f.None? then s
    else if f.value.RecentReviews? then s.(reviews := data, books := [])
    else s.(books := data, reviews := [])
  }

  /** `fetchData`. The error is cleared and loading starts; the tab and genre go to
      cookies before any request. A failure of the feed, or of the preference post that
      follows it, shows the error's message (or the fallback) and empties both lists.
      Loading always ends. */
  function FetchData(s: State, cookies: Cookies, feedReply: Api.Reply, prefReply: Api.Reply,
                     parse: string -> Result<Value>): (r: Run)
    ensures r.cookies == cookies["exploreTab" := s.tab]["exploreGenre" := s.genre]
    ensures r.pending == s.(error := None, loading := true)
    ensures !r.state.loading && r.state.tab == s.tab && r.state.genre == s.genre
    ensures r.state.error.Some? ==> r.state.books == [] && r.state.reviews == []
    ensures FeedOf(s.tab).Some? ==> |r.requests| >= 1 && r.requests[0] == ExploreApi.FeedRequest(FeedOf(s.tab).value, Str(s.genre))
    ensures FeedOf(s.tab).None? ==> |r.requests| == 1 && r.requests[0].body == Some(Api.TabBody(Str(s.tab)))
    ensures FeedOf(s.tab).Some? && ExploreApi.Fetch(FeedOf(s.tab).value, feedReply, parse).Err? ==>
              |r.requests| == 1
              && r.state.error == Some(MessageOr(ExploreApi.Fetch(FeedOf(s.tab).value, feedReply, parse).message, Fallback))
    ensures FeedOf(s.tab).None? ==>
              r.requests == [ExploreApi.UpdateTabPreference(Str(s.tab), prefReply).0]
    ensures FeedOf(s.tab).Some? && ExploreApi.Fetch(FeedOf(s.tab).value, feedReply, parse).Ok? ==>
              r.requests == [ExploreApi.FeedRequest(FeedOf(s.tab).value, Str(s.genre)),
                             ExploreApi.UpdateTabPreference(Str(s.tab), prefReply).0]
    ensures (FeedOf(s.tab).None? || ExploreApi.Fetch(FeedOf(s.tab).value, feedReply, parse).Ok?) ==>
              var pref := ExploreApi.UpdateTabPreference(Str(s.tab), prefReply).1;
              && (pref.Err? ==> r.state.error == Some(MessageOr(pref.message, Fallback)))
              && (pref.Ok? ==> r.state.error.None?)
    ensures FeedOf(s.tab).None? && ExploreApi.UpdateTabPreference(Str(s.tab), prefReply).1.Ok? ==>
              r.state == s.(error := None, loading := false)
  {
    var written := cookies["exploreTab" := s.tab]["exploreGenre" := s.genre];
    var pending := s.(error := None, loading := true);
    var failed := (m: string) => pending.(error := Some(MessageOr(m, Fallback)), books := [], reviews := [], loading := false);
    var pref := ExploreApi.UpdateTabPreference(Str(s.tab), prefReply);
    match FeedOf(s.tab)
    case None =>
      if pref.1.Err? then Run(written, pending, [pref.0], failed(pref.1.message))
      else Run(written, pending, [pref.0], pending.(loading := false))
    case Some(f) =>
      var feed := ExploreApi.FeedRequest(f, Str(s.genre));
      match ExploreApi.Fetch(f, feedReply, parse)
      case Err(m) => Run(written, pending, [feed], failed(m))
      case Ok(data) =>
        if pref.1.Err? then Run(written, pending, [feed, pref.0], failed(pref.1.message))
        else Run(written, pending, [feed, pref.0], Show(pending, Some(f), data).(loading := false))
  }

  /** The data shown after a run comes from the tab's own feed: with both calls
      succeeding, the loaded list sits in `books` or `reviews` as the tab says and the
      other list is empty. */
  lemma FetchDataShowsFeed(s: State, cookies: Cookies, feedReply: Api.Reply, prefReply: Api.Reply,
                           parse: string -> Result<Value>)
    requires FeedOf(s.tab).Some?
    requires ExploreApi.Fetch(FeedOf(s.tab).value, feedReply, parse).Ok?
    requires ExploreApi.UpdateTabPreference(Str(s.tab), prefReply).1.Ok?
    ensures var r := FetchData(s, cookies, feedReply, prefReply, parse);
            var data := ExploreApi.Fetch(FeedOf(s.tab).value, feedReply, parse).value;
            && r.state.error.None?
            && |r.requests| == 2
            && (s.tab == "new-reviews" ==> r.state.reviews == data && r.state.books == [])
            && (s.tab != "new-reviews" ==> r.state.books == data && r.state.reviews == [])
  {
  }

  /** A failed preference post discards the feed that had already loaded, and shows the
      preference's message instead. */
  lemma PreferenceFailureHidesFeed(s: State, cookies: Cookies, feedReply: Api.Reply, status: int,
                                   text: string, json: Result<Value>, parse: string -> Result<Value>)
    requires FeedOf(s.tab).None? || ExploreApi.Fetch(FeedOf(s.tab).value, feedReply, parse).Ok?
    ensures var r := FetchData(s, cookies, feedReply, Api.Answered(false, status, text, json), parse);
            r.state.books == [] && r.state.reviews == []
            && r.state.error == Some("Failed to update tab preference")
  {
  }

  /** A restart reads back what the last run saved: the next page opens on the same tab
      and genre, provided they are non-empty. */
  lemma CookiesRestoreTabAndGenre(s: State, cookies: Cookies, feedReply: Api.Reply, prefReply: Api.Reply,
                                  parse: string -> Result<Value>)
    requires s.tab != "" && s.genre != ""
    ensures var next := Init(FetchData(s, cookies, feedReply, prefReply, parse).cookies);
            next.tab == s.tab && next.genre == s.genre
  {
  }

  /** `Number(v)` on the values a rating takes, when the result is an integer: numbers
      stay, booleans give 0 or 1, `null` gives 0, and a string of optional white space
      around decimal digits gives their value. An array converts through its
      comma-joined text: the empty array gives 0, two or more elements give `NaN` (the
      comma is never part of a number), and one element converts like that element,
      with `null` and `undefined` joining to the empty text. A plain object gives `NaN`.
      Other strings (fractions, exponents, hex, `Infinity`) are not modelled: `None`. */
  function ToNumber(v: Value): (r: Option<Value>)
    ensures r.Some? ==> r.value.Num? || r.value.NaN?
    ensures v.Num? ==> r == Some(v)
    ensures v.Obj? ==> r == Some(NaN)
    ensures v.Arr? && |v.items| != 1 ==> r == Some(if v.items == [] then Num(0) else NaN)
    ensures v.Arr? && |v.items| == 1 && (v.items[0].Num? || v.items[0].Str? || v.items[0].Arr?) ==>
              r == ToNumber(v.items[0])
  {
    match v
    case Num(_) => Some(v)
    case NaN => Some(NaN)
    case Bool(b) => Some(Num(if b then 1 else 0))
    case Null => Some(Num(0))
    case Undefined => Some(NaN)
    case Str(s) =>
      var t := Text.Trim(s);
      if t == "" then Some(Num(0))
      else if forall i :: 0 <= i < |t| ==> Text.IsDigit(t[i]) then Some(Num(Text.DigitsValue(t)))
      else None
    case Obj(_) => Some(NaN)
    case Arr(items) =>
      if |items| == 0 then Some(Num(0))
      else if |items| > 1 then Some(NaN)
      else
        match items[0]
        case Null => Some(Num(0))
        case Undefined => Some(Num(0))
        case Bool(_) => Some(NaN)
        case NaN => Some(NaN)
        case Obj(_) => Some(NaN)
        case _ => ToNumber(items[0])
  }

  /** The rating prop of an explore card: `Number(book.rating)` when the rating is
      truthy, else `undefined`. */
  function RatingProp(book: Value): (r: Option<Value>)
    ensures !Truthy(OptMember(book, "rating")) ==> r == Some(Undefined)
    ensures Truthy(OptMember(book, "rating")) ==> r == ToNumber(OptMember(book, "rating"))
  {
    var rating := OptMember(book, "rating");
    if Truthy(rating) then ToNumber(rating) else Some(Undefined)
  }

  /** An explore card shows its rating line exactly when the book's rating is truthy, so
      a numeric rating of 0 is hidden here although the card itself would show a 0. The
      string "0" is truthy and is shown as 0. */
  lemma ExploreRatingLine(book: Value, c: BookCard.Card)
    requires RatingProp(book).Some? && c.rating == RatingProp(book).value
    ensures BookCard.RatingLineShown(c) <==> Truthy(OptMember(book, "rating"))
    ensures OptMember(book, "rating") == Num(0) ==> !BookCard.RatingLineShown(c)
    ensures OptMember(book, "rating") == Str("0") ==> BookCard.RatingLineShown(c) && c.rating == Num(0)
  {
    if OptMember(book, "rating") == Str("0") {
      assert Text.Trim("0") == "0" by {
        assert Text.LeadingSpace("0") == 0;
        assert Text.TrailingSpace("0") == 0;
      }
      assert Text.DigitsValue("0") == 0 by {
        assert "0"[..0] == "";
      }
    }
  }
}

=== FILE: header.dfy ===
/** The navigation bar of `Header.jsx`: which links and account entries it shows for the
    current user, the avatar's initials, and what signing out does. */
module Header {
  import opened Js
  import Text
  import Session

  datatype NavLink = NavLink(title: string, path: string, protected: bool)

  /** The three section links; only Explore is public. */
  const NavLinks := [
    NavLink("Explore", "/explore", false),
    NavLink("Bookshelf", "/bookshelf", true),
    NavLink("Timeline", "/timeline", true)
  ]

  /** A link is shown when it is public or somebody is signed in (any truthy user). */
  predicate Shown(l: NavLink, user: Value)
  {
    !l.protected || Truthy(user)
  }

  /** The links of the bar, in their order, keeping the shown ones. */
  function Visible(links: seq<NavLink>, user: Value): (r: seq<NavLink>)
    ensures |r| <= |links|
    ensures forall l :: l in r <==> l in links && Shown(l, user)
  {
    if links == [] then []
    else (if Shown(links[0], user) then [links[0]] else []) + Visible(links[1..], user)
  }

  /** The drawer's rule, written the other way round: a link is dropped when it is
      protected and nobody is signed in. */
  function DrawerVisible(links: seq<NavLink>, user: Value): seq<NavLink>
  {
    if links == [] then []
    else (if links[0].protected && !Truthy(user) then [] else [links[0]]) + DrawerVisible(links[1..], user)
  }

  /** The bar and the drawer show the same links. */
  lemma {:induction false} DrawerMatchesBar(links: seq<NavLink>, user: Value)
    ensures DrawerVisible(links, user) == Visible(links, user)
  {
    if links != [] {
      DrawerMatchesBar(links[1..], user);
    }
  }

  /** Signed out, only Explore is shown; signed in, all three links are, in order. */
  lemma VisibleNavLinks(user: Value)
    ensures !Truthy(user) ==> Visible(NavLinks, user) == [NavLinks[0]]
    ensures Truthy(user) ==> Visible(NavLinks, user) == NavLinks
  {
    var a := NavLinks;
    assert a[1..] == [a[1], a[2]];
    assert a[1..][1..] == [a[2]];
    assert a[1..][1..][1..] == [];
    var tail := Visible([a[2]], user);
    assert tail == (if Truthy(user) then [a[2]] else []) + Visible([], user);
    assert Visible([a[1], a[2]], user) == (if Truthy(user) then [a[1]] else []) + tail;
    assert Visible(a, user) == [a[0]] + Visible([a[1], a[2]], user);
  }

  /** The visibility test is on the user object, not on its token: a restored user
      without a token is not authenticated and still sees the protected links. */
  lemma TokenlessUserSeesProtectedLinks(fields: map<string, Value>)
    requires "token" !in fields
    ensures !Session.IsAuthenticated(Session.State(Obj(fields), map[]))
    ensures Visible(NavLinks, Obj(fields)) == NavLinks
  {
    VisibleNavLinks(Obj(fields));
  }

  /** The account entries after the section links. */
  datatype Entry = Link(caption: string, to: string) | Action(caption: string)

  /** The drawer: Login and Signup links when signed out, a Logout action otherwise. */
  function DrawerEntries(user: Value): (es: seq<Entry>)
    ensures Truthy(user) <==> Action("Logout") in es
    ensures !Truthy(user) <==> Link("Login", "/login") in es
  {
    if !Truthy(user) then [Link("Login", "/login"), Link("Signup", "/signup")] else [Action("Logout")]
  }

  /** The desktop bar: the same two links when signed out; otherwise the avatar's menu
      with Profile and Logout. */
  function MenuEntries(user: Value): (es: seq<Entry>)
    ensures Truthy(user) <==> Action("Logout") in es
    ensures !Truthy(user) <==> Link("Login", "/login") in es
    ensures Truthy(user) <==> Action("Profile") in es
  {
    if !Truthy(user) then [Link("Login", "/login"), Link("Signup", "/signup")]
    else [Action("Profile"), Action("Logout")]
  }

  /** The profile entry's destination, with `user.username` inserted as a template
      literal renders it. */
  function ProfilePath(user: Value): (p: string)
    requires Truthy(user)
    ensures |p| >= 6 && p[..6] == "/user/"
    ensures p[6..] == ToString(OptMember(user, "username"))
  {
    var p := "/user/" + ToString(OptMember(user, "username"));
    assert p[6..] == ToString(OptMember(user, "username"));
    p
  }

  /** `n => n[0]` joined: the first character of every non-empty part (an empty part
      contributes `undefined`, which `join` renders as nothing). */
  function FirstChars(parts: seq<string>): string
  {
    if parts == [] then ""
    else (if parts[0] == "" then "" else [parts[0][0]]) + FirstChars(parts[1..])
  }

  /** The characters of `s` that begin a word: not a space, and at the start or right
      after a space (`afterSpace` says whether the previous character was one). */
  function WordStarts(s: string, afterSpace: bool): string
  {
    if s == [] then ""
    else (if s[0] != ' ' && afterSpace then [s[0]] else "") + WordStarts(s[1..], s[0] == ' ')
  }

  /** The first characters of the parts of `s.split(' ')` are exactly the word starts of
      `s`; the parts after the first give the word starts after the first word. */
  lemma {:induction false} FirstCharsOfSplit(s: string)
    ensures FirstChars(Text.Split(s, ' ')) == WordStarts(s, true)
    ensures FirstChars(Text.Split(s, ' ')[1..]) == WordStarts(s, false)
  {
    if s != [] {
      FirstCharsOfSplit(s[1..]);
      var rest := Text.Split(s[1..], ' ');
      if s[0] == ' ' {
        assert Text.Split(s, ' ') == [""] + rest;
        assert ([""] + rest)[1..] == rest;
      } else {
        var parts := [[s[0]] + rest[0]] + rest[1..];
        assert Text.Split(s, ' ') == parts;
        assert parts[1..] == rest[1..];
        assert FirstChars(parts) == [s[0]] + FirstChars(rest[1..]);
      }
    }
  }

  /** The avatar's text for a signed-in user. With a truthy string `name`: the upper-cased
      first letter of each space-separated word. Otherwise the upper-cased first letter of
      `username`, or "U" when there is no username or it is empty. A truthy `name` or a
      `username` that is not a string has no `split` / `charAt`, and rendering throws. */
  function Initials(user: Value): (r: Result<string>)
    requires Truthy(user)
    ensures var name := OptMember(user, "name");
            Truthy(name) ==> (r.Ok? <==> name.Str?)
                             && (name.Str? ==> r.value == Text.Upper(WordStarts(name.s, true)))
    ensures var name := OptMember(user, "name");
            var username := OptMember(user, "username");
            !Truthy(name) ==>
              && (r.Ok? <==> username.Undefined? || username.Null? || username.Str?)
              && (r.Ok? ==> |r.value| == 1)
              && (username.Str? && username.s != "" ==> r == Ok([Text.UpperChar(username.s[0])]))
              && (r.Ok? && !(username.Str? && username.s != "") ==> r == Ok("U"))
  {
    var name := OptMember(user, "name");
    if Truthy(name) then
      if name.Str? then
        FirstCharsOfSplit(name.s);
        Ok(Text.Upper(FirstChars(Text.Split(name.s, ' '))))
      else Err(TypeErrorMessage)
    else
      match OptMember(user, "username")
      case Undefined => Ok("U")
      case Null => Ok("U")
      case Str(u) =>
        if u == "" then Ok("U")
        else
          assert Text.Upper(u[..1]) == [Text.UpperChar(u[0])];
          Ok(Text.Upper(u[..1]))
      case _ => Err(TypeErrorMessage)
  }

  /** The initials are drawn from the name: never more of them than characters, and
      never a space. */
  lemma {:induction false} WordStartsWithin(s: string, afterSpace: bool)
    ensures |WordStarts(s, afterSpace)| <= |s|
    ensures forall c :: c in WordStarts(s, afterSpace) ==> c in s && c != ' '
  {
    if s != [] {
      WordStartsWithin(s[1..], s[0] == ' ');
    }
  }

  /** The header's own state next to the session: whether the avatar menu is anchored
      (open), whether the drawer is open, and the current location. */
  datatype State = State(session: Session.State, menuOpen: bool, drawerOpen: bool, location: string)

  /** `handleLogout`: sign out, close the menu, go home. */
  function HandleLogout(h: State): (r: State)
    ensures r.session == Session.Logout(h.session)
    ensures !r.menuOpen && r.location == "/" && r.drawerOpen == h.drawerOpen
  {
    var signedOut := h.(session := Session.Logout(h.session));
    var closed := signedOut.(menuOpen := false);
    closed.(location := "/")
  }

  /** After signing out the bar is the public one: Explore only, with Login and Signup. */
  lemma LogoutShowsPublicBar(h: State)
    ensures var u := HandleLogout(h).session.user;
            && Visible(NavLinks, u) == [NavLinks[0]]
            && MenuEntries(u) == [Link("Login", "/login"), Link("Signup", "/signup")]
            && DrawerEntries(u) == MenuEntries(u)
  {
    VisibleNavLinks(Null);
  }
}

=== FILE: js.dfy ===
/** The slice of ECMAScript value semantics the client's logic depends on: dynamic values,
    truthiness, property reads (plain and optional), the `||` and `===` operators, and
    conversion to string as done by template literals and `String(...)`. */
module Js {
  import Text

  datatype Option<T> = None | Some(value: T) {
    function GetOr(default: T): T
    {
      match this
      case Some(v) => v
      case None => default
    }
  }

  /** The outcome of a computation that may throw: the thrown error's `message` on failure. */
  datatype Result<T> = Ok(value: T) | Err(message: string)

  /** A dynamic value. Numbers are integers or NaN; objects are finite maps from property
      names to values (plain data objects: no prototype chain, no identity). */
  datatype Value =
    | Undefined
    | Null
    | Bool(b: bool)
    | Num(n: int)
    | NaN
    | Str(s: string)
    | Arr(items: seq<Value>)
    | Obj(fields: map<string, Value>)

  type Object = map<string, Value>

  /** The message of the TypeError raised by reading a property of `null` or `undefined`. */
  const TypeErrorMessage := "Cannot read properties of null or undefined"

  /** ECMAScript ToBoolean. */
  predicate Truthy(v: Value)
  {
    match v
    case Undefined => false
    case Null => false
    case Bool(b) => b
    case Num(n) => n != 0
    case NaN => false
    case Str(s) => s != ""
    case Arr(_) => true
    case Obj(_) => true
  }

  /** The falsy values are exactly `undefined`, `null`, `false`, `0`, `NaN` and `""`. */
  lemma FalsyValues(v: Value)
    ensures !Truthy(v) <==> v in {Undefined, Null, Bool(false), Num(0), NaN, Str("")}
  {
  }

  /** Reading property `k` of an object: the stored value, or `undefined` when absent. */
  function Get(o: Object, k: string): (r: Value)
    ensures k !in o ==> r == Undefined
    ensures k in o ==> r == o[k]
  {
    if k in o then o[k] else Undefined
  }

  /** `v.k`: a TypeError on `null` and `undefined`; an object's property; `undefined` for
      the other primitives and arrays, whose built-in properties are not modelled. */
  function Member(v: Value, k: string): (r: Result<Value>)
    ensures r.Err? <==> v == Undefined || v == Null
    ensures v.Obj? ==> r == Ok(Get(v.fields, k))
  {
    match v
    case Undefined => Err(TypeErrorMessage)
    case Null => Err(TypeErrorMessage)
    case Obj(fields) => Ok(Get(fields, k))
    case _ => Ok(Undefined)
  }

  /** `v?.k`: like `v.k`, but `undefined` instead of a TypeError. */
  function OptMember(v: Value, k: string): (r: Value)
    ensures v == Undefined || v == Null ==> r == Undefined
    ensures Member(v, k).Ok? ==> r == Member(v, k).value
  {
    match v
    case Obj(fields) => Get(fields, k)
    case _ => Undefined
  }

  /** `a || b`: the left operand when truthy, the right one otherwise. */
  function Or(a: Value, b: Value): (r: Value)
    ensures Truthy(a) ==> r == a
    ensures !Truthy(a) ==> r == b
  {
    if Truthy(a) then a else b
  }

  /** `a === b` on the values the client compares: primitives by value, NaN unequal to
      itself. Arrays and objects are distinct allocations in every comparison the client
      makes, so they compare unequal. */
  predicate StrictEquals(a: Value, b: Value)
  {
    match a
    case Undefined => b.Undefined?
    case Null => b.Null?
    case Bool(x) => b.Bool? && b.b == x
    case Num(x) => b.Num? && b.n == x
    case NaN => false
    case Str(x) => b.Str? && b.s == x
    case Arr(_) => false
    case Obj(_) => false
  }

  /** On primitives other than NaN, `===` is equality of the modelled values. */
  lemma StrictEqualsPrimitives(a: Value, b: Value)
    requires !a.Arr? && !a.Obj? && !a.NaN?
    ensures StrictEquals(a, b) <==> a == b
  {
  }

  /** `String(v)`, also what a template literal `${v}` inserts. Arrays join their
      elements with commas, rendering `null` and `undefined` elements as empty. */
  function ToString(v: Value): string
    decreases v
  {
    match v
    case Undefined => "undefined"
    case Null => "null"
    case Bool(b) => if b then "true" else "false"
    case Num(n) => Text.IntToString(n)
    case NaN => "NaN"
    case Str(s) => s
    case Arr(items) =>
      Text.Join(seq(|items|, i requires 0 <= i < |items| =>
        if items[i].Undefined? || items[i].Null? then "" else ToString(items[i])), ",")
    case Obj(_) => "[object Object]"
  }

  /** An array of strings renders as its elements joined by commas. */
  lemma ToStringStringArray(xs: seq<string>)
    ensures ToString(Arr(seq(|xs|, i requires 0 <= i < |xs| => Str(xs[i])))) == Text.Join(xs, ",")
  {
    var items := seq(|xs|, i requires 0 <= i < |xs| => Str(xs[i]));
    var parts := seq(|items|, i requires 0 <= i < |items| =>
        if items[i].Undefined? || items[i].Null? then "" else ToString(items[i]));
    assert parts == xs;
  }

  /** `{ ...v }` for the values the client spreads: an object's own properties; nothing
      for `null`, `undefined` and the other primitives. */
  function Spread(v: Value): (o: Object)
    ensures v.Obj? ==> o == v.fields
    ensures !v.Obj? ==> o == map[]
  {
    if v.Obj? then v.fields else map[]
  }

  /** The `message` an `err.message || fallback` handler shows: the error's message when
      non-empty, else the fallback text. */
  function MessageOr(message: string, fallback: string): (r: string)
    ensures message != "" ==> r == message
    ensures message == "" ==> r == fallback
  {
    if message != "" then message else fallback
  }
}

=== FILE: login_page.dfy ===
/** `handleSubmit` of the login form: clear the error and show loading, post
    `{ email, password }`, sign in on success, and always stop loading. */
module LoginPage {
  import opened Js
  import Api
  import Session
  import AuthForm

  datatype Form = Form(email: string, password: string, error: Option<string>, loading: bool)

  /** One submission: the form while the request is pending, the request sent, the form
      and the session at the end, and the navigation. */
  datatype Outcome = Outcome(pending: Form, request: Api.Request, form: Form,
                             session: Session.State, navigate: Option<string>)

  const Fallback := "Login failed"

  /** The payload: exactly the email and the password. */
  function Payload(f: Form): (p: Value)
    ensures p.Obj? && p.fields.Keys == {"email", "password"}
    ensures p.fields["email"] == Str(f.email) && p.fields["password"] == Str(f.password)
  {
    Obj(map["email" := Str(f.email), "password" := Str(f.password)])
  }

  function Submit(f: Form, s: Session.State, reply: Api.Reply, stringify: Value -> string): (r: Outcome)
    ensures r.pending == f.(error := None, loading := true)
    ensures r.request == Api.RequestOf(Api.Login(Payload(f)))
    ensures !r.form.loading
    ensures r.form.email == f.email && r.form.password == f.password
    ensures r.navigate.Some? <==> r.form.error.None?
    ensures Api.Settle(reply).Err? ==>
              r.session == s && r.navigate.None?
              && r.form.error == Some(MessageOr(Api.Settle(reply).message, Fallback))
    ensures Api.Settle(reply).Ok? ==>
              var c := AuthForm.SignIn(s, Api.Settle(reply).value, stringify);
              && r.session == c.session
              && r.navigate == c.navigate
              && (c.thrown.Some? ==> r.form.error == Some(MessageOr(c.thrown.value, Fallback)))
  {
    var pending := f.(error := None, loading := true);
    var request := Api.RequestOf(Api.Login(Payload(f)));
    match Api.Settle(reply)
    case Err(m) =>
      Outcome(pending, request, pending.(error := Some(MessageOr(m, Fallback)), loading := false), s, None)
    case Ok(data) =>
      var c := AuthForm.SignIn(s, data, stringify);
      match c.thrown
      case Some(m) =>
        Outcome(pending, request, pending.(error := Some(MessageOr(m, Fallback)), loading := false), c.session, None)
      case None =>
        Outcome(pending, request, pending.(loading := false), c.session, c.navigate)
  }

  /** A successful login stores the token, signs in as `{ email, alias, token }` and goes
      home; a failed one shows the server's text or "Login failed" and changes nothing
      else. */
  lemma SubmitOutcomes(f: Form, s: Session.State, reply: Api.Reply, stringify: Value -> string)
    ensures var r := Submit(f, s, reply, stringify);
            r.navigate.Some? ==>
              && r.navigate == Some("/")
              && Api.Settle(reply).Ok? && Api.Settle(reply).value.Obj?
              && r.session.storage["token"] == ToString(Get(Api.Settle(reply).value.fields, "token"))
              && r.session.user.Obj? && r.session.user.fields.Keys == {"email", "alias", "token"}
              && AuthForm.SignedInFrom(s, Api.Settle(reply).value, r.session, stringify)
    ensures reply.Answered? && !reply.ok ==>
              var r := Submit(f, s, reply, stringify);
              r.session == s && r.form.error == Some(if reply.text != "" then reply.text else Fallback)
  {
  }
}

=== FILE: review_page.dfy ===
/** `ReviewPage.jsx`: the review form's submit handler. The form is the star rating
    (the widget's value, `0` when cleared), the text and the recommend box; the reply of
    the single `fetch` is a parameter, and so is the clock reading `now` that dates the
    submitted review. */
module ReviewPage {
  import opened Js
  import Api

  datatype Form = Form(rating: int, reviewText: string, recommend: bool, loading: bool)

  const Empty := Form(0, "", false, false)

  /** The props the handler reads; `onSubmit` and `onClose` are whether the parent passed
      those callbacks. */
  datatype Props = Props(bookId: Value, authorAlias: Value, onSubmit: bool, onClose: bool)

  /** How the request ended: rejected with a message, or a response with its status flag,
      its status text and its body parsed as JSON. */
  datatype Reply = Rejected(message: string) | Responded(ok: bool, statusText: string, json: Result<Value>)

  datatype Outcome = Outcome(
    request: Option<Api.Request>, alerts: seq<string>, submitted: Option<Value>,
    closed: bool, form: Form)

  const LoginRequired := "You must be logged in to submit a review."
  const RatingRequired := "Please provide a rating between 1 and 5 stars."
  const Submitted := "Review submitted successfully!"
  const NotAFunction := "is not a function"

  /** The widget reports a star count, or `null` when cleared, which becomes 0. */
  function RatingFromWidget(v: Option<int>): (r: int)
    ensures v.None? ==> r == 0
    ensures v.Some? ==> r == v.value
  {
    v.GetOr(0)
  }

  /** The rating guard: `!rating || rating < 1 || rating > 5` rejects. */
  predicate ValidRating(rating: int)
  {
    !(rating == 0 || rating < 1 || rating > 5)
  }

  /** The request body: exactly `{ bookId, rating, content, recommend }`. */
  function Body(p: Props, f: Form): (v: Value)
    ensures v.Obj? && v.fields.Keys == {"bookId", "rating", "content", "recommend"}
    ensures v.fields["content"] == Str(f.reviewText) && v.fields["rating"] == Num(f.rating)
    ensures v.fields["bookId"] == p.bookId && v.fields["recommend"] == Bool(f.recommend)
  {
    Obj(map["bookId" := p.bookId, "rating" := Num(f.rating), "content" := Str(f.reviewText),
            "recommend" := Bool(f.recommend)])
  }

  /** What `onSubmit` receives. */
  function Review(p: Props, f: Form, now: Value): (v: Value)
    ensures v.Obj? && v.fields.Keys == {"authorAlias", "reviewText", "rating", "recommend", "date"}
    ensures v.fields["authorAlias"] == p.authorAlias && v.fields["reviewText"] == Str(f.reviewText)
    ensures v.fields["rating"] == Num(f.rating) && v.fields["recommend"] == Bool(f.recommend)
    ensures v.fields["date"] == now
  {
    Obj(map["authorAlias" := p.authorAlias, "reviewText" := Str(f.reviewText), "rating" := Num(f.rating),
            "recommend" := Bool(f.recommend), "date" := now])
  }

  /** The alert for a non-ok response: the body's `message` or else the status text. An
      unreadable body counts as `{}`; a body that is JSON `null` has no `message` to read
      and throws, which the handler reports as an error. */
  function FailureAlert(statusText: string, json: Result<Value>): (a: string)
    ensures json.Err? ==> a == "Failed to submit review: " + statusText
    ensures json == Ok(Null) ==> a == "Error submitting review: " + TypeErrorMessage
    ensures json.Ok? && json.value.Obj? && "message" in json.value.fields && Truthy(json.value.fields["message"]) ==>
              a == "Failed to submit review: " + ToString(json.value.fields["message"])
  {
    var errorData := if json.Ok? then json.value else Obj(map[]);
    match Member(errorData, "message")
    case Err(m) => "Error submitting review: " + m
    case Ok(message) => "Failed to submit review: " + ToString(Or(message, Str(statusText)))
  }

  /** `handleSubmit`. Signed out or with a rating outside 1..5 it only alerts, sends
      nothing and leaves the form alone. Otherwise it posts the review; on success it
      alerts, hands the review to `onSubmit`, closes, and clears the form; on any failure
      it alerts and keeps what the reader typed. Loading ends false once a request was
      made. */
  function Submit(f: Form, p: Props, authenticated: bool, token: Value, now: Value, r: Reply): (o: Outcome)
    ensures !authenticated ==> o == Outcome(None, [LoginRequired], None, false, f)
    ensures authenticated && !ValidRating(f.rating) ==> o == Outcome(None, [RatingRequired], None, false, f)
    ensures o.request.Some? <==> authenticated && 1 <= f.rating <= 5
    ensures o.request.Some? ==>
              o.request.value == Api.RequestOf(Api.CreateReview(Body(p, f), token)) && !o.form.loading
    ensures o.submitted.Some? ==> o.submitted == Some(Review(p, f, now)) && |o.alerts| >= 1 && o.alerts[0] == Submitted
    ensures o.request.Some? && !(r.Responded? && r.ok) ==>
              o.submitted.None? && !o.closed && o.form == f.(loading := false) && |o.alerts| == 1
    ensures o.request.Some? && r.Rejected? ==> o.alerts == ["Error submitting review: " + r.message]
    ensures o.request.Some? && r.Responded? && !r.ok ==> o.alerts == [FailureAlert(r.statusText, r.json)]
    ensures o.request.Some? && r.Responded? && r.ok && p.onSubmit && p.onClose ==>
              o.submitted.Some? && o.closed && o.form == Empty && o.alerts == [Submitted]
  {
    if !authenticated then Outcome(None, [LoginRequired], None, false, f)
    else if !ValidRating(f.rating) then Outcome(None, [RatingRequired], None, false, f)
    else
      var request := Api.RequestOf(Api.CreateReview(Body(p, f), token));
      var done := f.(loading := false);
      match r
      case Rejected(m) => Outcome(Some(request), ["Error submitting review: " + m], None, false, done)
      case Responded(ok, statusText, json) =>
        if !ok then Outcome(Some(request), [FailureAlert(statusText, json)], None, false, done)
        else if !p.onSubmit then
          Outcome(Some(request), [Submitted, "Error submitting review: onSubmit " + NotAFunction], None, false, done)
        else if !p.onClose then
          Outcome(Some(request), [Submitted, "Error submitting review: onClose " + NotAFunction],
                  Some(Review(p, f, now)), false, done)
        else Outcome(Some(request), [Submitted], Some(Review(p, f, now)), true, Empty)
  }

  /** A cleared widget always fails the rating guard. */
  lemma ClearedRatingRejected(f: Form, p: Props, token: Value, now: Value, r: Reply)
    requires f.rating == RatingFromWidget(None)
    ensures Submit(f, p, true, token, now, r) == Outcome(None, [RatingRequired], None, false, f)
  {
  }

  /** Submitting is all-or-nothing for the form: either it is cleared (a review went to
      the parent and the dialog closed) or it keeps the rating, text and choice. */
  lemma FormClearedOrKept(f: Form, p: Props, authenticated: bool, token: Value, now: Value, r: Reply)
    ensures var o := Submit(f, p, authenticated, token, now, r);
            (o.form == Empty && o.closed && o.submitted.Some?)
            || (o.form.rating == f.rating && o.form.reviewText == f.reviewText && o.form.recommend == f.recommend
                && !o.closed)
  {
  }

  /** The request this form sends is the `api` client's `createReview`: a POST to
      `/reviews` carrying the token. */
  lemma SubmitUsesCreateReview(f: Form, p: Props, token: Value, now: Value, r: Reply)
    requires 1 <= f.rating <= 5
    ensures var q := Submit(f, p, true, token, now, r).request;
            q.Some? && q.value.verb == Api.Post && q.value.url == Api.BaseUrl + "/reviews"
            && q.value.headers == Api.AuthHeaders(token)
  {
  }
}

=== FILE: session.dfy ===
/** The session store of `AuthContext.jsx`: the current user (any JSON value, `null` when
    signed out) and the browser's key/value storage. `JSON.parse` and `JSON.stringify` are
    the parameters `parse` and `stringify`. */
module Session {
  import opened Js

  type Storage = map<string, string>

  datatype State = State(user: Value, storage: Storage)

  /** The initial user: the parsed `'user'` record, `null` when the key is absent or
      empty. A record that does not parse is an error: the provider fails to start. */
  function Restore(storage: Storage, parse: string -> Result<Value>): (r: Result<Value>)
    ensures "user" !in storage || storage["user"] == "" ==> r == Ok(Null)
    ensures "user" in storage && storage["user"] != "" ==> r == parse(storage["user"])
  {
    if "user" in storage && storage["user"] != "" then parse(storage["user"]) else Ok(Null)
  }

  function Init(storage: Storage, parse: string -> Result<Value>): (r: Result<State>)
    ensures r.Ok? <==> Restore(storage, parse).Ok?
    ensures r.Ok? ==> r.value.storage == storage && r.value.user == Restore(storage, parse).value
  {
    match Restore(storage, parse)
    case Ok(u) => Ok(State(u, storage))
    case Err(m) => Err(m)
  }

  /** `login(token, userData)`: the user becomes `{ ...userData, token }`, the token
      overriding any `token` field of `userData`, and the same object is stored under
      `'user'`. Nothing else in storage changes. */
  function Login(s: State, token: Value, userData: Value, stringify: Value -> string): (r: State)
    ensures r.user.Obj?
    ensures r.user.fields.Keys == Spread(userData).Keys + {"token"}
    ensures r.user.fields["token"] == token
    ensures forall k :: k in Spread(userData) && k != "token" ==> r.user.fields[k] == Spread(userData)[k]
    ensures r.storage.Keys == s.storage.Keys + {"user"}
    ensures r.storage["user"] == stringify(r.user)
    ensures forall k :: k in s.storage && k != "user" ==> r.storage[k] == s.storage[k]
  {
    var u := Obj(Spread(userData)["token" := token]);
    State(u, s.storage["user" := stringify(u)])
  }

  /** `logout()`: no user, and the keys `'user'` and `'lastSearch'` removed. Every other
      key, `'token'` included, is left in place. */
  function Logout(s: State): (r: State)
    ensures r.user == Null
    ensures r.storage.Keys == s.storage.Keys - {"user", "lastSearch"}
    ensures forall k :: k in r.storage ==> r.storage[k] == s.storage[k]
  {
    State(Null, s.storage - {"user", "lastSearch"})
  }

  /** `isAuthenticated`: a user with a truthy token. */
  predicate IsAuthenticated(s: State)
  {
    Truthy(s.user) && Truthy(OptMember(s.user, "token"))
  }

  /** The exposed `token`: `user.token` when there is a user, else `null`. */
  function Token(s: State): (t: Value)
    ensures !Truthy(s.user) ==> t == Null
    ensures Truthy(s.user) ==> Member(s.user, "token") == Ok(t)
  {
    if Truthy(s.user) then OptMember(s.user, "token") else Null
  }

  /** Signing out twice is signing out once. */
  lemma LogoutIdempotent(s: State)
    ensures Logout(Logout(s)) == Logout(s)
  {
  }

  /** Signing out leaves the `'token'` key that the login and signup forms wrote. */
  lemma LogoutKeepsToken(s: State)
    requires "token" in s.storage
    ensures "token" in Logout(s).storage && Logout(s).storage["token"] == s.storage["token"]
    ensures !IsAuthenticated(Logout(s)) && Token(Logout(s)) == Null
  {
  }

  /** Authenticated exactly when the exposed token is truthy. */
  lemma AuthenticatedIffToken(s: State)
    ensures IsAuthenticated(s) <==> Truthy(Token(s))
  {
  }

  /** After `login(t, d)` the session is authenticated exactly when `t` is truthy (an
      empty-string token is not), and it exposes `t` as its token. */
  lemma LoginAuthenticates(s: State, t: Value, d: Value, stringify: Value -> string)
    ensures IsAuthenticated(Login(s, t, d, stringify)) <==> Truthy(t)
    ensures Token(Login(s, t, d, stringify)) == t
  {
  }

  /** What `login` stores, the next start restores, provided `JSON.parse` reads back what
      `JSON.stringify` wrote. */
  lemma LoginRestoreRoundTrip(s: State, t: Value, d: Value, stringify: Value -> string,
                              parse: string -> Result<Value>)
    requires var u := Login(s, t, d, stringify).user;
             stringify(u) != "" && parse(stringify(u)) == Ok(u)
    ensures var r := Login(s, t, d, stringify);
            Init(r.storage, parse) == Ok(r)
  {
  }
}

=== FILE: signup_page.dfy ===
/** `handleSubmit` of the signup form: a password mismatch is reported without any
    request; otherwise post `{ email, password, alias }` and finish like the login form. */
module SignupPage {
  import opened Js
  import Api
  import Session
  import AuthForm

  datatype Form = Form(email: string, alias: string, password: string, confirmPassword: string,
                       error: Option<string>, loading: bool)

  /** One submission: the form while the request is pending (none when the guard stops
      it), the request sent, the form and the session at the end, and the navigation. */
  datatype Outcome = Outcome(pending: Option<Form>, request: Option<Api.Request>, form: Form,
                             session: Session.State, navigate: Option<string>)

  const Mismatch := "Passwords don't match"
  const Fallback := "Signup failed"

  /** The payload: exactly the email, the password and the alias. */
  function Payload(f: Form): (p: Value)
    ensures p.Obj? && p.fields.Keys == {"email", "password", "alias"}
    ensures p.fields["email"] == Str(f.email) && p.fields["password"] == Str(f.password)
    ensures p.fields["alias"] == Str(f.alias)
  {
    Obj(map["email" := Str(f.email), "password" := Str(f.password), "alias" := Str(f.alias)])
  }

  /** The form while the request is pending, when one is made. */
  function Pending(f: Form): (p: Form)
    ensures p.error.None? && p.loading
  {
    f.(error := None, loading := true)
  }

  function Submit(f: Form, s: Session.State, reply: Api.Reply, stringify: Value -> string): (r: Outcome)
    ensures f.password != f.confirmPassword <==> r.request.None?
    ensures f.password != f.confirmPassword ==>
              r == Outcome(None, None, f.(error := Some(Mismatch)), s, None)
    ensures f.password == f.confirmPassword ==>
              && r.pending == Some(Pending(f))
              && r.request == Some(Api.RequestOf(Api.Signup(Payload(f))))
              && !r.form.loading
              && (r.navigate.Some? <==> r.form.error.None?)
    ensures r.navigate.Some? ==>
              && r.navigate == Some("/")
              && Api.Settle(reply).Ok? && Api.Settle(reply).value.Obj?
              && "token" in r.session.storage
              && r.session.storage["token"] == ToString(Get(Api.Settle(reply).value.fields, "token"))
              && r.session.user.Obj? && r.session.user.fields.Keys == {"email", "alias", "token"}
              && AuthForm.SignedInFrom(s, Api.Settle(reply).value, r.session, stringify)
    ensures r.request.Some? && Api.Settle(reply).Err? ==>
              r.session == s && r.navigate.None?
              && r.form.error == Some(MessageOr(Api.Settle(reply).message, Fallback))
    ensures r.request.Some? && Api.Settle(reply).Ok? ==>
              var c := AuthForm.SignIn(s, Api.Settle(reply).value, stringify);
              && r.session == c.session
              && (c.thrown.Some? ==> r.form.error == Some(MessageOr(c.thrown.value, Fallback)))
  {
    if f.password != f.confirmPassword then
      Outcome(None, None, f.(error := Some(Mismatch)), s, None)
    else
      var pending := Pending(f);
      var request := Api.RequestOf(Api.Signup(Payload(f)));
      match Api.Settle(reply)
      case Err(m) =>
        Outcome(Some(pending), Some(request), pending.(error := Some(MessageOr(m, Fallback)), loading := false), s, None)
      case Ok(data) =>
        var c := AuthForm.SignIn(s, data, stringify);
        match c.thrown
        case Some(m) =>
          Outcome(Some(pending), Some(request), pending.(error := Some(MessageOr(m, Fallback)), loading := false), c.session, None)
        case None =>
          Outcome(Some(pending), Some(request), pending.(loading := false), c.session, c.navigate)
  }

  /** The mismatch guard never touches `loading`: a form that was not loading stays not
      loading, one that was stays loading. */
  lemma MismatchKeepsLoading(f: Form, s: Session.State, reply: Api.Reply, stringify: Value -> string)
    requires f.password != f.confirmPassword
    ensures Submit(f, s, reply, stringify).form.loading == f.loading
    ensures Submit(f, s, reply, stringify).session == s
  {
  }

  /** A successful signup stores the token, signs in as `{ email, alias, token }` and goes
      home, exactly as the login form does; a body without `user` leaves the token written
      and shows the error. */
  lemma SubmitOutcomes(f: Form, s: Session.State, reply: Api.Reply, stringify: Value -> string)
    requires f.password == f.confirmPassword
    ensures var r := Submit(f, s, reply, stringify);
            Api.Settle(reply).Ok? && AuthForm.SignIn(s, Api.Settle(reply).value, stringify).thrown.None? ==>
              r.navigate == Some("/") && r.form.error.None?
              && Session.Token(r.session) == Get(Api.Settle(reply).value.fields, "token")
              && AuthForm.SignedInFrom(s, Api.Settle(reply).value, r.session, stringify)
    ensures var r := Submit(f, s, reply, stringify);
            reply.Answered? && reply.ok && reply.json.Ok? && reply.json.value.Obj?
            && "user" !in reply.json.value.fields ==>
              && r.navigate.None? && r.session.user == s.user
              && r.session.storage == s.storage["token" := ToString(Get(reply.json.value.fields, "token"))]
  {
    var r := Submit(f, s, reply, stringify);
    if Api.Settle(reply).Ok? && AuthForm.SignIn(s, Api.Settle(reply).value, stringify).thrown.None? {
      AuthForm.SignInAuthenticates(s, Api.Settle(reply).value, stringify);
    }
    if reply.Answered? && reply.ok && reply.json.Ok? && reply.json.value.Obj?
       && "user" !in reply.json.value.fields {
      AuthForm.TokenWrittenWithoutUser(s, reply.json.value.fields, stringify);
    }
  }
}

=== FILE: text.dfy ===
/** String operations of the ECMAScript standard library that the client relies on:
    `split` with a one-character separator, `join`, `trim`, `toUpperCase`, `slice`,
    decimal rendering of integers and the `<` order on strings. */
module Text {

  /** Number of occurrences of `c` in `s`. */
  function Count(s: string, c: char): nat
  {
    if s == [] then 0 else (if s[0] == c then 1 else 0) + Count(s[1..], c)
  }

  /** `parts.join(sep)`. */
  function Join(parts: seq<string>, sep: string): string
  {
    if parts == [] then ""
    else if |parts| == 1 then parts[0]
    else parts[0] + sep + Join(parts[1..], sep)
  }

  /** `s.split(c)` for a one-character separator: the maximal runs between separators,
      always at least one part (the empty string splits into `[""]`). */
  function Split(s: string, c: char): (parts: seq<string>)
    ensures |parts| == Count(s, c) + 1
    ensures forall i :: 0 <= i < |parts| ==> c !in parts[i]
  {
    if s == [] then [""]
    else
      var rest := Split(s[1..], c);
      if s[0] == c then [""] + rest
      else [[s[0]] + rest[0]] + rest[1..]
  }

  /** Joining the parts of a split with the separator gives back the original string. */
  lemma {:induction false} JoinSplit(s: string, c: char)
    ensures Join(Split(s, c), [c]) == s
  {
    if s != [] {
      var rest := Split(s[1..], c);
      JoinSplit(s[1..], c);
      if s[0] == c {
        assert Split(s, c) == [""] + rest;
        assert ([""] + rest)[1..] == rest;
      } else {
        var parts := [[s[0]] + rest[0]] + rest[1..];
        assert Split(s, c) == parts;
        if |rest| == 1 {
          assert Join(rest, [c]) == rest[0];
        } else {
          assert parts[1..] == rest[1..];
          assert Join(rest, [c]) == rest[0] + [c] + Join(rest[1..], [c]);
          assert s == [s[0]] + s[1..];
        }
      }
    }
  }

  /** Conversely, splitting a join of separator-free parts gives back the parts. */
  lemma {:induction false} SplitJoin(parts: seq<string>, c: char)
    requires |parts| >= 1
    requires forall i :: 0 <= i < |parts| ==> c !in parts[i]
    ensures Split(Join(parts, [c]), c) == parts
  {
    if |parts| == 1 {
      SplitNoSeparator(parts[0], c);
    } else {
      SplitJoin(parts[1..], c);
      SplitPrefix(parts[0], c, Join(parts[1..], [c]));
      assert Join(parts, [c]) == parts[0] + ([c] + Join(parts[1..], [c]));
    }
  }

  lemma {:induction false} SplitNoSeparator(s: string, c: char)
    requires c !in s
    ensures Split(s, c) == [s]
  {
    if s != [] {
      SplitNoSeparator(s[1..], c);
      assert [s[0]] + s[1..] == s;
    }
  }

  /** Splitting `w + c + t` where `w` holds no separator puts `w` in front of the split of `t`. */
  lemma {:induction false} SplitPrefix(w: string, c: char, t: string)
    requires c !in w
    ensures Split(w + [c] + t, c) == [w] + Split(t, c)
  {
    if w == [] {
      assert w + [c] + t == [c] + t;
      assert ([c] + t)[1..] == t;
    } else {
      SplitPrefix(w[1..], c, t);
      var s := w + [c] + t;
      assert s[0] == w[0];
      assert s[1..] == w[1..] + [c] + t;
      assert [w[0]] + w[1..] == w;
    }
  }

  /** The white space `String.prototype.trim` removes: the WhiteSpace and LineTerminator
      code points of the ECMAScript standard. */
  predicate IsSpace(c: char)
  {
    c == '\t' || c == '\n' || c == '\U{0B}' || c == '\U{0C}' || c == '\r' || c == ' '
    || c == '\U{A0}' || c == '\U{1680}' || ('\U{2000}' <= c <= '\U{200A}')
    || c == '\U{2028}' || c == '\U{2029}' || c == '\U{202F}' || c == '\U{205F}'
    || c == '\U{3000}' || c == '\U{FEFF}'
  }

  predicate AllSpace(s: string)
  {
    forall i :: 0 <= i < |s| ==> IsSpace(s[i])
  }

  /** Length of the leading white-space run. */
  function LeadingSpace(s: string): (n: nat)
    ensures n <= |s|
    ensures AllSpace(s[..n])
    ensures n < |s| ==> !IsSpace(s[n])
  {
    if s == [] || !IsSpace(s[0]) then 0
    else
      var m := LeadingSpace(s[1..]);
      assert s[..m + 1] == [s[0]] + s[1..][..m];
      m + 1
  }

  /** Length of the trailing white-space run. */
  function TrailingSpace(s: string): (n: nat)
    ensures n <= |s|
    ensures AllSpace(s[|s| - n..])
    ensures n < |s| ==> !IsSpace(s[|s| - n - 1])
  {
    if s == [] || !IsSpace(s[|s| - 1]) then 0
    else
      var m := TrailingSpace(s[..|s| - 1]);
      assert s[|s| - (m + 1)..] == s[..|s| - 1][|s| - 1 - m..] + [s[|s| - 1]];
      m + 1
  }

  /** `s.trim()`: `s` without its leading and trailing white space. The result is empty
      exactly when `s` is all white space; otherwise it starts and ends with a non-space
      and sits inside `s` between two white-space runs. */
  function Trim(s: string): (r: string)
    ensures r == "" <==> AllSpace(s)
    ensures r != "" ==> !IsSpace(r[0]) && !IsSpace(r[|r| - 1])
    ensures exists i :: 0 <= i <= |s| - |r| && s[i..i + |r|] == r
                        && AllSpace(s[..i]) && AllSpace(s[i + |r|..])
  {
    var a := LeadingSpace(s);
    if a == |s| then
      assert s[..a] == s;
      assert s[0..0] == "" && s[..0] == "" && s[0..] == s;
      assert 0 <= 0 <= |s| - 0 && s[0..0] == "" && AllSpace(s[..0]) && AllSpace(s[0..]);
      ""
    else
      var t := s[a..];
      var b := TrailingSpace(t);
      assert t[0] == s[a];
      var r := t[..|t| - b];
      assert r[0] == s[a];
      assert r[|r| - 1] == t[|t| - b - 1];
      assert s[a..a + |r|] == r;
      assert s[a + |r|..] == t[|t| - b..];
      assert !AllSpace(s) by { assert !IsSpace(s[a]); }
      assert 0 <= a <= |s| - |r| && s[a..a + |r|] == r && AllSpace(s[..a]) && AllSpace(s[a + |r|..]);
      r
  }

  /** No white space at either end. */
  predicate Tight(s: string)
  {
    s == "" || (!IsSpace(s[0]) && !IsSpace(s[|s| - 1]))
  }

  /** Trimming leaves a string without white space at its ends as it is. */
  lemma TrimTight(s: string)
    requires Tight(s)
    ensures Trim(s) == s
  {
    if s != "" {
      assert LeadingSpace(s) == 0;
      assert TrailingSpace(s) == 0;
    }
  }

  /** A leading space is one more character `trim` removes. */
  lemma TrimAfterSpace(s: string)
    ensures Trim([' '] + s) == Trim(s)
  {
    var u := [' '] + s;
    assert u[1..] == s;
    assert LeadingSpace(u) == LeadingSpace(s) + 1;
    var a := LeadingSpace(s);
    if a < |s| {
      assert u[a + 1..] == s[a..];
    }
  }

  /** ASCII upper-casing of one character; every other character is left alone. */
  function UpperChar(c: char): char
  {
    if 'a' <= c <= 'z' then (c as int - 32) as char else c
  }

  /** `s.toUpperCase()` restricted to the ASCII letters. */
  function Upper(s: string): (r: string)
    ensures |r| == |s|
    ensures forall i :: 0 <= i < |s| ==> r[i] == UpperChar(s[i])
  {
    seq(|s|, i requires 0 <= i < |s| => UpperChar(s[i]))
  }

  /** Upper-casing twice is upper-casing once, and leaves no lower-case ASCII letter. */
  lemma UpperIdempotent(s: string)
    ensures Upper(Upper(s)) == Upper(s)
    ensures forall i :: 0 <= i < |s| ==> !('a' <= Upper(s)[i] <= 'z')
  {
  }

  /** `s.slice(0, n)` for n >= 0. */
  function Prefix(s: string, n: nat): (r: string)
    ensures |r| == if |s| < n then |s| else n
    ensures r <= s
  {
    if |s| < n then s else s[..n]
  }

  function DigitChar(d: nat): char
    requires d < 10
  {
    ('0' as int + d) as char
  }

  predicate IsDigit(c: char)
  {
    '0' <= c <= '9'
  }

  /** Decimal rendering of a natural number, most significant digit first, no leading zero. */
  function NatToString(n: nat): (r: string)
    ensures |r| >= 1
    ensures forall i :: 0 <= i < |r| ==> IsDigit(r[i])
    ensures |r| > 1 ==> r[0] != '0'
  {
    if n < 10 then [DigitChar(n)] else NatToString(n / 10) + [DigitChar(n % 10)]
  }

  /** `String(i)` for an integer. */
  function IntToString(i: int): (r: string)
    ensures i < 0 <==> (r != "" && r[0] == '-')
  {
    if i < 0 then "-" + NatToString(-i) else NatToString(i)
  }

  /** The value of a string of decimal digits, read most significant first. */
  function DigitsValue(s: string): nat
    requires forall i :: 0 <= i < |s| ==> IsDigit(s[i])
  {
    if s == [] then 0
    else
      assert IsDigit(s[|s| - 1]);
      DigitsValue(s[..|s| - 1]) * 10 + (s[|s| - 1] as int - '0' as int)
  }

  /** Reading back a rendered natural gives the number. */
  lemma {:induction false} NatToStringRoundTrip(n: nat)
    ensures DigitsValue(NatToString(n)) == n
  {
    if n >= 10 {
      NatToStringRoundTrip(n / 10);
      var r := NatToString(n);
      assert r[..|r| - 1] == NatToString(n / 10);
    }
  }

  /** Rendering is injective: different numbers never print the same. */
  lemma IntToStringInjective(i: int, j: int)
    requires IntToString(i) == IntToString(j)
    ensures i == j
  {
    if i < 0 && j < 0 {
      assert NatToString(-i) == IntToString(i)[1..];
      NatToStringRoundTrip(-i);
      NatToStringRoundTrip(-j);
    } else if i >= 0 && j >= 0 {
      NatToStringRoundTrip(i);
      NatToStringRoundTrip(j);
    }
  }

  /** ECMAScript's `a < b` on strings: lexicographic order on characters, a proper prefix
      being smaller. */
  predicate Less(a: string, b: string)
  {
    if a == [] then b != []
    else if b == [] then false
    else a[0] < b[0] || (a[0] == b[0] && Less(a[1..], b[1..]))
  }

  lemma {:induction false} LessIrreflexive(a: string)
    ensures !Less(a, a)
  {
    if a != [] { LessIrreflexive(a[1..]); }
  }

  lemma {:induction false} LessTransitive(a: string, b: string, c: string)
    requires Less(a, b) && Less(b, c)
    ensures Less(a, c)
  {
    if a != [] && b != [] && c != [] && a[0] == b[0] && b[0] == c[0] {
      LessTransitive(a[1..], b[1..], c[1..]);
    }
  }

  /** Two different strings are always ordered one way or the other, never both. */
  lemma {:induction false} LessTotal(a: string, b: string)
    requires a != b
    ensures Less(a, b) != Less(b, a)
  {
    if a != [] && b != [] && a[0] == b[0] {
      assert a == [a[0]] + a[1..] && b == [b[0]] + b[1..];
      LessTotal(a[1..], b[1..]);
    } else if a != [] && b != [] {
    } else if a == [] {
    } else {
    }
  }
}

=== FILE: timeline.dfy ===
/** The reading timeline: finished books grouped into month buckets, the per-month
    counts behind the habit bar chart, the display order of the buckets, and the fetch of
    the reading history that feeds them. */
module Timeline {
  import opened Js
  import Text
  import Api

  /** A finished book as the history endpoint returns it; `finishedDate` is `None` when
      the field is `null` or missing. */
  datatype Book = Book(id: string, title: string, finishedDate: Option<string>)

  const Unknown := "unknown"

  /** The bucket key of a book: the first seven characters (`YYYY-MM`) of a non-empty
      finish date, else `"unknown"`. */
  function MonthKey(b: Book): (k: string)
    ensures |k| <= 7
    ensures k != Unknown ==> b.finishedDate.Some? && k <= b.finishedDate.value
  {
    if b.finishedDate.Some? && b.finishedDate.value != "" then Text.Prefix(b.finishedDate.value, 7)
    else Unknown
  }

  /** `null`, a missing field and the empty string all land in `"unknown"`; a non-empty
      date gives its first seven characters (all of it when shorter). */
  lemma MonthKeyCases(b: Book)
    ensures b.finishedDate == None ==> MonthKey(b) == Unknown
    ensures b.finishedDate == Some("") ==> MonthKey(b) == Unknown
    ensures b.finishedDate.Some? && b.finishedDate.value != "" ==>
              MonthKey(b) <= b.finishedDate.value
              && |MonthKey(b)| == (if |b.finishedDate.value| < 7 then |b.finishedDate.value| else 7)
  {
  }

  datatype Bucket = Bucket(month: string, books: seq<Book>)

  /** Some bucket of `g` has key `k`: the object of the source has property `k`. */
  predicate HasMonth(g: seq<Bucket>, k: string)
  {
    exists i :: 0 <= i < |g| && g[i].month == k
  }

  predicate DistinctMonths(g: seq<Bucket>)
  {
    forall i, j :: 0 <= i < j < |g| ==> g[i].month != g[j].month
  }

  /** The position of the bucket with key `k`, if any: the lookup `acc[key]`. */
  function IndexOf(g: seq<Bucket>, k: string): (r: Option<nat>)
    ensures r.Some? ==> r.value < |g| && g[r.value].month == k
    ensures r.None? <==> !HasMonth(g, k)
  {
    if g == [] then None
    else if g[0].month == k then Some(0)
    else
      match IndexOf(g[1..], k)
      case Some(i) => Some(i + 1)
      case None =>
        assert !HasMonth(g, k) by {
          forall i | 0 < i < |g| ensures g[i].month != k {
            assert g[1..][i - 1] == g[i];
          }
        }
        None
  }

  /** One step of the `reduce`: append `b` to the bucket of key `k`, creating that bucket
      at the end when the key is new. */
  function Place(g: seq<Bucket>, k: string, b: Book): (r: seq<Bucket>)
    requires DistinctMonths(g)
    ensures DistinctMonths(r)
    ensures HasMonth(g, k) ==> |r| == |g|
    ensures !HasMonth(g, k) ==> |r| == |g| + 1 && r[|g|] == Bucket(k, [b])
    ensures forall i :: 0 <= i < |g| ==> r[i].month == g[i].month
    ensures forall i :: 0 <= i < |g| && g[i].month != k ==> r[i] == g[i]
    ensures forall i :: 0 <= i < |g| && g[i].month == k ==> r[i].books == g[i].books + [b]
    ensures forall m :: HasMonth(r, m) <==> HasMonth(g, m) || m == k
  {
    match IndexOf(g, k)
    case Some(i) =>
      var r := g[i := Bucket(k, g[i].books + [b])];
      assert forall m :: HasMonth(r, m) ==> HasMonth(g, m) by {
        forall m | HasMonth(r, m) ensures HasMonth(g, m) {
          var j :| 0 <= j < |r| && r[j].month == m;
          assert g[j].month == m;
        }
      }
      r
    case None =>
      var r := g + [Bucket(k, [b])];
      assert r[|g|].month == k;
      assert forall m :: HasMonth(g, m) ==> HasMonth(r, m) by {
        forall m | HasMonth(g, m) ensures HasMonth(r, m) {
          var j :| 0 <= j < |g| && g[j].month == m;
          assert r[j].month == m;
        }
      }
      r
  }

  /** `groupBooksByMonth`: a left fold of `Place` over the books, as the source's `reduce`
      into an object whose keys keep their first-insertion order. */
  function Group(books: seq<Book>): (g: seq<Bucket>)
    ensures DistinctMonths(g)
  {
    if books == [] then []
    else
      var last := books[|books| - 1];
      Place(Group(books[..|books| - 1]), MonthKey(last), last)
  }

  /** The books of `books` whose key is `k`, in input order. */
  function Filter(books: seq<Book>, k: string): (r: seq<Book>)
    ensures |r| <= |books|
  {
    if books == [] then []
    else
      var last := books[|books| - 1];
      Filter(books[..|books| - 1], k) + (if MonthKey(last) == k then [last] else [])
  }

  predicate Occurs(books: seq<Book>, k: string)
  {
    exists i :: 0 <= i < |books| && MonthKey(books[i]) == k
  }

  /** The position of the first book with key `k`. */
  function FirstIndex(books: seq<Book>, k: string): (i: nat)
    requires Occurs(books, k)
    ensures i < |books| && MonthKey(books[i]) == k
    ensures forall j :: 0 <= j < i ==> MonthKey(books[j]) != k
  {
    if MonthKey(books[0]) == k then 0
    else
      assert Occurs(books[1..], k) by {
        var j :| 0 <= j < |books| && MonthKey(books[j]) == k;
        assert books[1..][j - 1] == books[j];
      }
      1 + FirstIndex(books[1..], k)
  }

  lemma FirstIndexAppend(books: seq<Book>, b: Book, k: string)
    requires Occurs(books, k)
    ensures Occurs(books + [b], k)
    ensures FirstIndex(books + [b], k) == FirstIndex(books, k)
  {
    var i := FirstIndex(books, k);
    var s := books + [b];
    assert s[i] == books[i];
    assert forall j :: 0 <= j < i ==> s[j] == books[j];
    FirstIndexUnique(s, k, i);
  }

  lemma FirstIndexUnique(books: seq<Book>, k: string, i: nat)
    requires i < |books| && MonthKey(books[i]) == k
    requires forall j :: 0 <= j < i ==> MonthKey(books[j]) != k
    ensures Occurs(books, k) && FirstIndex(books, k) == i
  {
    var f := FirstIndex(books, k);
    assert !(f < i) && !(i < f);
  }

  /** Key `k1` first occurs before key `k2` does. */
  predicate FirstBefore(books: seq<Book>, k1: string, k2: string)
  {
    Occurs(books, k1) && Occurs(books, k2) && FirstIndex(books, k1) < FirstIndex(books, k2)
  }

  /** What the grouping promises, stated without reference to how it is computed. */
  ghost predicate GroupingOf(g: seq<Bucket>, books: seq<Book>)
  {
    // keys are unique
    && DistinctMonths(g)
    // a key has a bucket exactly when some book carries it
    && (forall k :: HasMonth(g, k) <==> Occurs(books, k))
    // each bucket holds exactly the books of its key, in input order
    && (forall i :: 0 <= i < |g| ==> g[i].books == Filter(books, g[i].month))
    // buckets appear in order of their key's first occurrence
    && (forall i, j :: 0 <= i < j < |g| ==>
          FirstBefore(books, g[i].month, g[j].month))
  }

  /** `groupBooksByMonth` partitions the books: one bucket per distinct key in order of
      first occurrence, each holding exactly that key's books in input order. */
  lemma GroupIsGrouping(books: seq<Book>)
    ensures GroupingOf(Group(books), books)
  {
    GroupMonths(books);
    GroupBuckets(books);
    GroupOrder(books);
  }

  lemma GroupUnfold(books: seq<Book>)
    requires books != []
    ensures var init := books[..|books| - 1];
            var b := books[|books| - 1];
            && books == init + [b]
            && Group(books) == Place(Group(init), MonthKey(b), b)
            && forall k :: Filter(books, k) == Filter(init, k) + (if MonthKey(b) == k then [b] else [])
  {
  }

  lemma OccursAppend(books: seq<Book>, b: Book)
    ensures forall k :: Occurs(books + [b], k) <==> Occurs(books, k) || MonthKey(b) == k
  {
    var s := books + [b];
    forall k ensures Occurs(s, k) <==> Occurs(books, k) || MonthKey(b) == k {
      if Occurs(books, k) {
        var i :| 0 <= i < |books| && MonthKey(books[i]) == k;
        assert s[i] == books[i];
      }
      if MonthKey(b) == k { assert s[|books|] == b; }
      if Occurs(s, k) {
        var i :| 0 <= i < |s| && MonthKey(s[i]) == k;
        if i < |books| { assert s[i] == books[i]; }
      }
    }
  }

  lemma {:induction false} GroupMonths(books: seq<Book>)
    ensures forall k :: HasMonth(Group(books), k) <==> Occurs(books, k)
  {
    if books != [] {
      var init := books[..|books| - 1];
      GroupUnfold(books);
      GroupMonths(init);
      OccursAppend(init, books[|books| - 1]);
    }
  }

  lemma {:induction false} FilterAbsent(books: seq<Book>, k: string)
    requires !Occurs(books, k)
    ensures Filter(books, k) == []
  {
    if books != [] {
      var init := books[..|books| - 1];
      OccursAppend(init, books[|books| - 1]);
      assert books == init + [books[|books| - 1]];
      FilterAbsent(init, k);
    }
  }

  lemma {:induction false} GroupBuckets(books: seq<Book>)
    ensures var g := Group(books);
            forall i :: 0 <= i < |g| ==> g[i].books == Filter(books, g[i].month)
  {
    if books != [] {
      var init := books[..|books| - 1];
      var b := books[|books| - 1];
      GroupUnfold(books);
      GroupBuckets(init);
      var g := Group(init);
      var r := Group(books);
      var k := MonthKey(b);
      forall i | 0 <= i < |r| ensures r[i].books == Filter(books, r[i].month) {
        assert Filter(books, r[i].month) == Filter(init, r[i].month) + (if k == r[i].month then [b] else []);
        if i < |g| {
          assert r[i].month == g[i].month;
        } else {
          GroupMonths(init);
          FilterAbsent(init, k);
          assert r[i] == Bucket(k, [b]);
        }
      }
    }
  }

  lemma {:induction false} GroupOrder(books: seq<Book>)
    ensures var g := Group(books);
            forall i, j :: 0 <= i < j < |g| ==>
              FirstBefore(books, g[i].month, g[j].month)
  {
    if books != [] {
      var init := books[..|books| - 1];
      var b := books[|books| - 1];
      var k := MonthKey(b);
      GroupUnfold(books);
      GroupOrder(init);
      GroupMonths(init);
      var g := Group(init);
      var r := Group(books);
      GroupOrderStep(books, init, b, g, r);
    } else {
      assert Group(books) == [];
    }
  }

  lemma GroupOrderStep(books: seq<Book>, init: seq<Book>, b: Book, g: seq<Bucket>, r: seq<Bucket>)
    requires books == init + [b]
    requires DistinctMonths(g) && r == Place(g, MonthKey(b), b)
    requires forall k :: HasMonth(g, k) <==> Occurs(init, k)
    requires forall i, j :: 0 <= i < j < |g| ==>
               FirstBefore(init, g[i].month, g[j].month)
    ensures forall i, j :: 0 <= i < j < |r| ==>
              FirstBefore(books, r[i].month, r[j].month)
  {
    forall i, j | 0 <= i < j < |r|
      ensures FirstBefore(books, r[i].month, r[j].month)
    {
      assert r[i].month == g[i].month;
      if j < |g| {
        assert r[j].month == g[j].month;
        FirstBeforeAppend(init, b, g[i].month, g[j].month);
      } else {
        assert HasMonth(g, g[i].month);
        assert !HasMonth(g, MonthKey(b)) && r[j].month == MonthKey(b);
        FirstBeforeNew(init, b, g[i].month);
      }
    }
  }

  /** Appending a book keeps the order of first occurrences. */
  lemma FirstBeforeAppend(init: seq<Book>, b: Book, k1: string, k2: string)
    requires FirstBefore(init, k1, k2)
    ensures FirstBefore(init + [b], k1, k2)
  {
    FirstIndexAppend(init, b, k1);
    FirstIndexAppend(init, b, k2);
  }

  /** A key first met in the appended book comes after every earlier key. */
  lemma FirstBeforeNew(init: seq<Book>, b: Book, k: string)
    requires Occurs(init, k) && !Occurs(init, MonthKey(b))
    ensures FirstBefore(init + [b], k, MonthKey(b))
  {
    FirstIndexAppend(init, b, k);
    var s := init + [b];
    assert s[|init|] == b;
    forall j | 0 <= j < |init| ensures MonthKey(s[j]) != MonthKey(b) {
      assert s[j] == init[j];
    }
    FirstIndexUnique(s, MonthKey(b), |init|);
  }

  /** All buckets' books, as a multiset. */
  function Bag(g: seq<Bucket>): multiset<Book>
  {
    if g == [] then multiset{} else multiset(g[0].books) + Bag(g[1..])
  }

  lemma {:induction false} BagAppend(g: seq<Bucket>, x: Bucket)
    ensures Bag(g + [x]) == Bag(g) + multiset(x.books)
  {
    if g != [] {
      BagAppend(g[1..], x);
      assert (g + [x])[1..] == g[1..] + [x];
    }
  }

  /** Appending `b` to the books of bucket `i` adds `b` to the bag. */
  lemma {:induction false} BagAddTo(g: seq<Bucket>, i: nat, b: Book)
    requires i < |g|
    ensures Bag(g[i := g[i].(books := g[i].books + [b])]) == Bag(g) + multiset{b}
  {
    var h := g[i := g[i].(books := g[i].books + [b])];
    if i == 0 {
      assert h[1..] == g[1..];
      assert multiset(h[0].books) == multiset(g[0].books) + multiset{b};
      assert Bag(h) == multiset(h[0].books) + Bag(g[1..]);
    } else {
      BagAddTo(g[1..], i - 1, b);
      assert h[0] == g[0] && h[1..] == g[1..][i - 1 := g[1..][i - 1].(books := g[1..][i - 1].books + [b])];
      assert Bag(h) == multiset(g[0].books) + Bag(h[1..]);
      assert Bag(g) == multiset(g[0].books) + Bag(g[1..]);
    }
  }

  lemma BagPlace(g: seq<Bucket>, k: string, b: Book)
    requires DistinctMonths(g)
    ensures Bag(Place(g, k, b)) == Bag(g) + multiset{b}
  {
    match IndexOf(g, k)
    case Some(i) =>
      assert Place(g, k, b) == g[i := g[i].(books := g[i].books + [b])];
      BagAddTo(g, i, b);
    case None =>
      assert Place(g, k, b) == g + [Bucket(k, [b])];
      BagAppend(g, Bucket(k, [b]));
  }

  /** No book is lost or duplicated: the buckets together hold exactly the input books. */
  lemma {:induction false} GroupPreservesBooks(books: seq<Book>)
    ensures Bag(Group(books)) == multiset(books)
  {
    if books != [] {
      var init := books[..|books| - 1];
      var b := books[|books| - 1];
      GroupPreservesBooks(init);
      GroupUnfold(books);
      BagPlace(Group(init), MonthKey(b), b);
    }
  }

  /** A per-month count as plotted by the habit bar chart. */
  datatype MonthCount = MonthCount(month: string, count: nat)

  /** `getMonthlyCounts`: one entry per bucket, in the grouping's order. */
  function MonthlyCounts(g: seq<Bucket>): (cs: seq<MonthCount>)
    ensures |cs| == |g|
    ensures forall i :: 0 <= i < |g| ==> cs[i] == MonthCount(g[i].month, |g[i].books|)
  {
    seq(|g|, i requires 0 <= i < |g| => MonthCount(g[i].month, |g[i].books|))
  }

  function Total(cs: seq<MonthCount>): nat
  {
    if cs == [] then 0 else cs[0].count + Total(cs[1..])
  }

  /** Each month's count is the number of input books whose key is that month. */
  lemma CountsMatchBooks(books: seq<Book>)
    ensures var cs := MonthlyCounts(Group(books));
            forall i :: 0 <= i < |cs| ==> cs[i].count == |Filter(books, cs[i].month)|
  {
    GroupIsGrouping(books);
  }

  lemma {:induction false} TotalIsBagSize(g: seq<Bucket>)
    ensures Total(MonthlyCounts(g)) == |Bag(g)|
  {
    if g != [] {
      TotalIsBagSize(g[1..]);
      assert MonthlyCounts(g)[1..] == MonthlyCounts(g[1..]);
    }
  }

  /** The counts add up to the number of finished books. */
  lemma CountsSumToInput(books: seq<Book>)
    ensures Total(MonthlyCounts(Group(books))) == |books|
  {
    TotalIsBagSize(Group(books));
    GroupPreservesBooks(books);
  }

  /** "No finished books yet." is shown exactly when there are no finished books. */
  lemma EmptyTimeline(books: seq<Book>)
    ensures |MonthlyCounts(Group(books))| == 0 <==> books == []
  {
    GroupMonths(books);
    if books != [] {
      assert Occurs(books, MonthKey(books[0]));
    }
  }

  /** Strictly descending by month in the `<` order of strings. */
  predicate Descending(g: seq<Bucket>)
  {
    forall i, j :: 0 <= i < j < |g| ==> Text.Less(g[j].month, g[i].month)
  }

  /** Every month of `s` comes before `m`. */
  predicate AllBelow(s: seq<Bucket>, m: string)
  {
    forall j :: 0 <= j < |s| ==> Text.Less(s[j].month, m)
  }

  lemma DescendingCons(x: Bucket, s: seq<Bucket>)
    requires Descending(s) && AllBelow(s, x.month)
    ensures Descending([x] + s)
  {
    var r := [x] + s;
    forall i, j | 0 <= i < j < |r| ensures Text.Less(r[j].month, r[i].month) {
      assert r[j] == s[j - 1];
      if i > 0 { assert r[i] == s[i - 1]; }
    }
  }

  lemma AllBelowTransitive(s: seq<Bucket>, a: string, b: string)
    requires AllBelow(s, a) && Text.Less(a, b)
    ensures AllBelow(s, b)
  {
    forall j | 0 <= j < |s| ensures Text.Less(s[j].month, b) {
      Text.LessTransitive(s[j].month, a, b);
    }
  }

  /** The tail of a descending sequence is descending and below its head. */
  lemma DescendingTail(s: seq<Bucket>)
    requires s != [] && Descending(s)
    ensures Descending(s[1..]) && AllBelow(s[1..], s[0].month)
  {
    forall j | 0 <= j < |s[1..]| ensures Text.Less(s[1..][j].month, s[0].month) {
      assert s[1..][j] == s[j + 1];
    }
  }

  lemma NoMonthTail(s: seq<Bucket>, m: string)
    requires s != [] && !HasMonth(s, m)
    ensures !HasMonth(s[1..], m)
  {
    forall j | 0 <= j < |s[1..]| ensures s[1..][j].month != m {
      assert s[1..][j] == s[j + 1];
    }
  }

  /** Inserts `x` into a descending sequence at its place. */
  function InsertDescending(x: Bucket, s: seq<Bucket>): (r: seq<Bucket>)
    requires Descending(s)
    requires !HasMonth(s, x.month)
    ensures Descending(r)
    ensures multiset(r) == multiset(s) + multiset{x}
    ensures |r| == |s| + 1
    ensures forall m :: AllBelow(s, m) && Text.Less(x.month, m) ==> AllBelow(r, m)
    decreases |s|, 1
  {
    if s == [] then [x]
    else
      DescendingTail(s);
      assert s == [s[0]] + s[1..];
      if Text.Less(s[0].month, x.month) then
        AllBelowTransitive(s[1..], s[0].month, x.month);
        DescendingCons(x, s);
        [x] + s
      else
        InsertAfterHead(x, s)
  }

  /** The case where `x` goes after the head of `s`. */
  function InsertAfterHead(x: Bucket, s: seq<Bucket>): (r: seq<Bucket>)
    requires s != [] && Descending(s) && Descending(s[1..]) && AllBelow(s[1..], s[0].month)
    requires !HasMonth(s, x.month) && !Text.Less(s[0].month, x.month)
    requires s == [s[0]] + s[1..]
    ensures Descending(r)
    ensures multiset(r) == multiset(s) + multiset{x}
    ensures |r| == |s| + 1
    ensures forall m :: AllBelow(s, m) && Text.Less(x.month, m) ==> AllBelow(r, m)
    decreases |s|, 0
  {
    assert s[0].month != x.month;
    Text.LessTotal(s[0].month, x.month);
    NoMonthTail(s, x.month);
    var rest := InsertDescending(x, s[1..]);
    DescendingCons(s[0], rest);
    var r := [s[0]] + rest;
    forall m | AllBelow(s, m) && Text.Less(x.month, m) ensures AllBelow(r, m) {
      assert AllBelow(s[1..], m) by {
        forall j | 0 <= j < |s[1..]| ensures Text.Less(s[1..][j].month, m) {
          assert s[1..][j] == s[j + 1];
        }
      }
      assert AllBelow(rest, m);
      forall j | 0 <= j < |r| ensures Text.Less(r[j].month, m) {
        if j > 0 { assert r[j] == rest[j - 1]; }
      }
    }
    r
  }

  lemma MultisetMonths(r: seq<Bucket>, g: seq<Bucket>, k: string)
    requires multiset(r) == multiset(g)
    ensures HasMonth(r, k) <==> HasMonth(g, k)
  {
    if HasMonth(r, k) {
      var i :| 0 <= i < |r| && r[i].month == k;
      assert r[i] in multiset(g);
      var j :| 0 <= j < |g| && g[j] == r[i];
    }
    if HasMonth(g, k) {
      var i :| 0 <= i < |g| && g[i].month == k;
      assert g[i] in multiset(r);
      var j :| 0 <= j < |r| && r[j] == g[i];
    }
  }

  /** The display order of the buckets: `Object.entries(grouped).sort((a, b) => a[0] > b[0] ? -1 : 1)`,
      most recent month first. The keys of an object are distinct, and for distinct keys
      that comparator is a strict total order, so the sorted result is the one below
      whatever algorithm the engine's sort uses (see `DescendingUnique`). */
  function DisplayOrder(g: seq<Bucket>): (r: seq<Bucket>)
    requires DistinctMonths(g)
    ensures Descending(r)
    ensures multiset(r) == multiset(g)
  {
    if g == [] then []
    else
      var last := g[|g| - 1];
      var init := g[..|g| - 1];
      assert g == init + [last];
      var sorted := DisplayOrder(init);
      assert !HasMonth(sorted, last.month) by {
        MultisetMonths(sorted, init, last.month);
        assert !HasMonth(init, last.month) by {
          forall i | 0 <= i < |init| ensures init[i].month != last.month {
            assert init[i] == g[i];
          }
        }
      }
      InsertDescending(last, sorted)
  }

  /** Two descending sequences with the same elements are equal: the order any correct
      sort produces is unique. */
  lemma {:induction false} DescendingUnique(s: seq<Bucket>, t: seq<Bucket>)
    requires Descending(s) && Descending(t)
    requires multiset(s) == multiset(t)
    ensures s == t
  {
    if s != [] {
      assert |t| == |s| by { assert |multiset(s)| == |multiset(t)|; }
      DescendingHeads(s, t);
      TailMultiset(s);
      TailMultiset(t);
      DescendingTail(s);
      DescendingTail(t);
      DescendingUnique(s[1..], t[1..]);
      assert s == [s[0]] + s[1..] && t == [t[0]] + t[1..];
    }
  }

  /** Two descending sequences with the same elements start alike. */
  lemma DescendingHeads(s: seq<Bucket>, t: seq<Bucket>)
    requires Descending(s) && Descending(t)
    requires multiset(s) == multiset(t) && s != [] && t != []
    ensures s[0] == t[0]
  {
    assert s[0] in multiset(t);
    assert t[0] in multiset(s);
    if s[0] != t[0] {
      var i :| 0 <= i < |t| && t[i] == s[0];
      var j :| 0 <= j < |s| && s[j] == t[0];
      assert Text.Less(s[0].month, t[0].month);
      assert Text.Less(t[0].month, s[0].month);
      Text.LessIrreflexive(s[0].month);
      Text.LessTransitive(s[0].month, t[0].month, s[0].month);
      assert false;
    }
  }

  lemma TailMultiset(s: seq<Bucket>)
    requires s != []
    ensures multiset(s[1..]) == multiset(s) - multiset{s[0]}
  {
    assert s == [s[0]] + s[1..];
    assert multiset(s) == multiset{s[0]} + multiset(s[1..]);
  }

  lemma DigitBeforeUnknown(m: string)
    requires m != "" && Text.IsDigit(m[0])
    ensures Text.Less(m, Unknown)
  {
  }

  /** Because `'u'` follows every digit, the `"unknown"` bucket is displayed before every
      bucket whose key starts with a digit (every `YYYY-MM` key). */
  lemma UnknownDisplayedFirst(g: seq<Bucket>)
    requires DistinctMonths(g)
    requires HasMonth(g, Unknown)
    requires forall i :: 0 <= i < |g| && g[i].month != Unknown ==>
               g[i].month != "" && Text.IsDigit(g[i].month[0])
    ensures DisplayOrder(g)[0].month == Unknown
  {
    var r := DisplayOrder(g);
    MultisetMonths(r, g, Unknown);
    var p :| 0 <= p < |r| && r[p].month == Unknown;
    if p > 0 {
      var top := r[0].month;
      assert Text.Less(Unknown, top);
      Text.LessIrreflexive(Unknown);
      MultisetMonths(r, g, top);
      var i :| 0 <= i < |g| && g[i].month == top;
      DigitBeforeUnknown(top);
      Text.LessTransitive(Unknown, top, Unknown);
      assert false;
    }
  }

  /** The bar of a month: `count * 10 + 10` pixels, strictly growing with the count. */
  function BarHeight(count: nat): (h: nat)
    ensures h >= 10 && (h - 10) % 10 == 0 && (h - 10) / 10 == count
  {
    count * 10 + 10
  }

  lemma BarHeightMonotone(c1: nat, c2: nat)
    requires c1 < c2
    ensures BarHeight(c1) < BarHeight(c2)
  {
  }

  /** The bar's hover title: `"<month>: <count> book finished"`, plural above one. */
  function BarTitle(month: string, count: nat): string
  {
    month + ": " + Text.NatToString(count) + " book" + (if count > 1 then "s" else "") + " finished"
  }

  /** The title is plural exactly when more than one book was finished that month, and it
      starts with the month followed by `": "` and the count. */
  lemma BarTitlePlural(month: string, count: nat)
    ensures var t := BarTitle(month, count);
            var head := month + ": " + Text.NatToString(count);
            && head <= t
            && (count > 1 <==> t == head + " books finished")
            && (count <= 1 <==> t == head + " book finished")
  {
    var head := month + ": " + Text.NatToString(count);
    if count > 1 {
      assert head + " book" + "s" + " finished" == head + " books finished";
      assert head + " books finished" != head + " book finished" by {
        assert |head + " books finished"| != |head + " book finished"|;
      }
    } else {
      assert head + " book" + "" + " finished" == head + " book finished";
      assert |head + " books finished"| != |head + " book finished"|;
    }
  }

  /** The page state behind the timeline. */
  datatype Page = Page(finished: seq<Book>, loading: bool, error: Option<string>)

  /** The answer to the history request: the network failed with a message, or a response
      arrived with its status and a body that parsed to books or failed to parse. */
  datatype HistoryReply =
    | NetworkError(message: string)
    | Response(ok: bool, status: int, body: Result<seq<Book>>)

  /** The address the page itself writes for the history request. */
  const HistoryUrl := "https://bookbrust-server.onrender.com/api/history"

  /** The message shown when a failure carries no message of its own. */
  const HistoryFallback := "Failed to load reading history"

  /** The request the page sends: a GET with the bearer token and the JSON content type. */
  function HistoryRequest(token: Value): Api.Request
  {
    Api.Request(Api.Get, HistoryUrl,
                [Api.Header("Authorization", "Bearer " + ToString(token)),
                 Api.Header("Content-Type", "application/json")],
                None)
  }

  /** One run of `fetchHistory`: the page while the request is pending (none without a
      token), the request sent (none without a token), and the page once it settles. */
  datatype HistoryStep = HistoryStep(pending: Option<Page>, request: Option<Api.Request>, page: Page)

  /** `fetchHistory`: without a token it only sets the login error and sends nothing;
      otherwise it clears the error, loads, sends the history request, and ends not
      loading with either the books or an error message. */
  function FetchHistory(p: Page, token: Value, reply: HistoryReply): (r: HistoryStep)
    ensures !Truthy(token) ==>
              r == HistoryStep(None, None,
                               p.(error := Some("You must be logged in to view reading history.")))
    ensures Truthy(token) ==>
              && r.pending == Some(p.(loading := true, error := None))
              && r.request == Some(HistoryRequest(token))
              && !r.page.loading
    ensures Truthy(token) && reply.Response? && reply.ok && reply.body.Ok? ==>
              r.page == Page(reply.body.value, false, None)
    ensures Truthy(token) && !(reply.Response? && reply.ok && reply.body.Ok?) ==>
              r.page.finished == p.finished && r.page.error.Some?
    ensures Truthy(token) && reply.NetworkError? ==>
              r.page.error == Some(MessageOr(reply.message, HistoryFallback))
    ensures Truthy(token) && reply.Response? && !reply.ok ==>
              r.page.error == Some("HTTP error! status: " + Text.IntToString(reply.status))
    ensures Truthy(token) && reply.Response? && reply.ok && reply.body.Err? ==>
              r.page.error == Some(MessageOr(reply.body.message, HistoryFallback))
  {
    if !Truthy(token) then
      HistoryStep(None, None, p.(error := Some("You must be logged in to view reading history.")))
    else
      var pending := p.(loading := true, error := None);
      var settled :=
        match reply
        case NetworkError(m) =>
          pending.(loading := false, error := Some(MessageOr(m, HistoryFallback)))
        case Response(ok, status, body) =>
          if !ok then
            pending.(loading := false,
                     error := Some(MessageOr("HTTP error! status: " + Text.IntToString(status),
                                             HistoryFallback)))
          else if body.Err? then
            pending.(loading := false, error := Some(MessageOr(body.message, HistoryFallback)))
          else
            pending.(finished := body.value, loading := false);
      HistoryStep(Some(pending), Some(HistoryRequest(token)), settled)
  }

  /** The request the page writes out by hand is the one the `api` client builds for the
      reading history: same verb, address, headers and empty body. */
  lemma HistoryRequestAgrees(token: Value)
    ensures HistoryRequest(token) == Api.RequestOf(Api.GetReadingHistory(token))
  {
  }

  /** With a token, the settled page shows no error exactly when an ok response parsed to
      books, and then it shows those books; every other outcome keeps the old books. */
  lemma HistoryErrorIffFailed(p: Page, token: Value, reply: HistoryReply)
    requires Truthy(token)
    ensures var r := FetchHistory(p, token, reply).page;
            && (r.error.None? <==> reply.Response? && reply.ok && reply.body.Ok?)
            && (r.error.None? ==> r.finished == reply.body.value)
            && (r.error.Some? ==> r.finished == p.finished)
  {
  }
}

=== FILE: uri.dfy ===
/** Percent-encoding of URI components as done by ECMAScript `encodeURIComponent`: the
    unreserved characters of section 2.3 of RFC 3986 plus `! ' ( ) *` pass through, every
    other character is UTF-8 encoded and each byte written as `%` and two upper-case hex
    digits (section 2.1 of RFC 3986). The decoder is `decodeURIComponent`, the partner
    that shows the encoding loses nothing. */
module Uri {
  import opened Js

  /** Characters `encodeURIComponent` leaves as they are. */
  predicate Unreserved(c: char)
  {
    ('A' <= c <= 'Z') || ('a' <= c <= 'z') || ('0' <= c <= '9')
    || c == '-' || c == '_' || c == '.' || c == '~'
    || c == '!' || c == '\'' || c == '(' || c == ')' || c == '*'
  }

  predicate IsUpperHex(c: char)
  {
    ('0' <= c <= '9') || ('A' <= c <= 'F')
  }

  function HexDigit(d: nat): (c: char)
    requires d < 16
    ensures IsUpperHex(c)
  {
    if d < 10 then ('0' as int + d) as char else ('A' as int + d - 10) as char
  }

  /** The value of a hex digit of either case. */
  function HexValue(c: char): (r: Option<nat>)
    ensures r.Some? ==> r.value < 16
  {
    if '0' <= c <= '9' then Some(c as int - '0' as int)
    else if 'A' <= c <= 'F' then Some(c as int - 'A' as int + 10)
    else if 'a' <= c <= 'f' then Some(c as int - 'a' as int + 10)
    else None
  }

  /** `%XX` for one byte. */
  function PercentByte(b: nat): (r: string)
    requires b < 256
    ensures |r| == 3 && r[0] == '%' && IsUpperHex(r[1]) && IsUpperHex(r[2])
  {
    ['%', HexDigit(b / 16), HexDigit(b % 16)]
  }

  predicate Payloads(xs: seq<nat>)
  {
    forall i :: 0 <= i < |xs| ==> xs[i] < 64
  }

  /** The UTF-8 continuation bytes carrying six-bit payloads `xs`, percent-encoded. */
  function PercentContinuations(xs: seq<nat>): (r: string)
    requires Payloads(xs)
    ensures |r| == 3 * |xs|
  {
    if xs == [] then "" else PercentByte(0x80 + xs[0]) + PercentContinuations(xs[1..])
  }

  /** The lead byte of the UTF-8 encoding of code point `cp`. */
  function Utf8Lead(cp: nat): nat
  {
    if cp < 0x80 then cp
    else if cp < 0x800 then 0xC0 + cp / 64
    else if cp < 0x1_0000 then 0xE0 + cp / 4096
    else 0xF0 + cp / 262144
  }

  /** The six-bit payloads of the continuation bytes of the UTF-8 encoding of `cp`. */
  function Utf8Tail(cp: nat): (xs: seq<nat>)
    ensures Payloads(xs) && |xs| <= 3
  {
    if cp < 0x80 then []
    else if cp < 0x800 then [cp % 64]
    else if cp < 0x1_0000 then [(cp / 64) % 64, cp % 64]
    else [(cp / 4096) % 64, (cp / 64) % 64, cp % 64]
  }

  function EncodeChar(c: char): (r: string)
    ensures 1 <= |r|
  {
    if Unreserved(c) then [c]
    else
      var cp := c as int;
      assert Utf8Lead(cp) < 256;
      PercentByte(Utf8Lead(cp)) + PercentContinuations(Utf8Tail(cp))
  }

  /** `encodeURIComponent(s)`. */
  function Encode(s: string): (r: string)
  {
    if s == [] then "" else EncodeChar(s[0]) + Encode(s[1..])
  }

  /** Every character of an encoding is unreserved, a `%` or an upper-case hex digit, so
      no `&`, `=`, `#`, `?`, `/` or space can leak into a query string. */
  lemma {:induction false} EncodeAlphabet(s: string)
    ensures forall i :: 0 <= i < |Encode(s)| ==>
              Unreserved(Encode(s)[i]) || Encode(s)[i] == '%' || IsUpperHex(Encode(s)[i])
  {
    if s != [] {
      EncodeAlphabet(s[1..]);
      var e := EncodeChar(s[0]);
      if !Unreserved(s[0]) {
        ContinuationsAlphabet(Utf8Tail(s[0] as int));
      }
      forall i | 0 <= i < |Encode(s)|
        ensures Unreserved(Encode(s)[i]) || Encode(s)[i] == '%' || IsUpperHex(Encode(s)[i])
      {
        if i >= |e| { assert Encode(s)[i] == Encode(s[1..])[i - |e|]; }
        else if i >= 3 && !Unreserved(s[0]) {
          assert e[i] == PercentContinuations(Utf8Tail(s[0] as int))[i - 3];
        }
      }
    }
  }

  lemma {:induction false} ContinuationsAlphabet(xs: seq<nat>)
    requires Payloads(xs)
    ensures forall i :: 0 <= i < |PercentContinuations(xs)| ==>
              PercentContinuations(xs)[i] == '%' || IsUpperHex(PercentContinuations(xs)[i])
  {
    if xs != [] {
      ContinuationsAlphabet(xs[1..]);
      var r := PercentContinuations(xs);
      forall i | 0 <= i < |r| ensures r[i] == '%' || IsUpperHex(r[i]) {
        if i >= 3 { assert r[i] == PercentContinuations(xs[1..])[i - 3]; }
      }
    }
  }

  /** A string of unreserved characters is its own encoding. */
  lemma {:induction false} EncodeUnreserved(s: string)
    requires forall i :: 0 <= i < |s| ==> Unreserved(s[i])
    ensures Encode(s) == s
  {
    if s != [] {
      EncodeUnreserved(s[1..]);
      assert [s[0]] + s[1..] == s;
    }
  }

  /** The byte written as `%XX` at the start of `t`, if there is one. */
  function ReadByte(t: string): (r: Option<nat>)
    ensures r.Some? ==> |t| >= 3 && r.value < 256
  {
    if |t| >= 3 && t[0] == '%' && HexValue(t[1]).Some? && HexValue(t[2]).Some? then
      Some(HexValue(t[1]).value * 16 + HexValue(t[2]).value)
    else None
  }

  /** Reads `k` percent-encoded continuation bytes from the start of `t`, shifting their
      payloads into `acc`. */
  function ReadContinuations(t: string, k: nat, acc: nat): (r: Option<nat>)
    ensures r.Some? ==> |t| >= 3 * k
  {
    if k == 0 then Some(acc)
    else
      var b := ReadByte(t);
      if b.None? || !(0x80 <= b.value < 0xC0) then None
      else ReadContinuations(t[3..], k - 1, acc * 64 + (b.value - 0x80))
  }

  function Scalar(cp: int): Option<char>
  {
    if 0 <= cp < 0xD800 || 0xE000 <= cp < 0x11_0000 then Some(cp as char) else None
  }

  /** Completes a multi-byte sequence whose lead byte contributed `acc`: `k` continuation
      bytes, then the overlong and range checks. */
  function FinishSequence(t: string, k: nat, acc: nat, least: nat): (r: Option<(char, nat)>)
    requires |t| >= 3
    ensures r.Some? ==> r.value.1 == 3 * (k + 1) <= |t|
  {
    var cp := ReadContinuations(t[3..], k, acc);
    if cp.None? || cp.value < least || Scalar(cp.value).None? then None
    else Some((Scalar(cp.value).value, 3 * (k + 1)))
  }

  /** Decodes the first character of `t`, returning it with the number of characters of
      `t` it took; `None` where `decodeURIComponent` throws a URIError (a malformed escape,
      a bad UTF-8 sequence, an overlong form or a surrogate). */
  function DecodeOne(t: string): (r: Option<(char, nat)>)
    requires t != []
    ensures r.Some? ==> 1 <= r.value.1 <= |t|
  {
    if t[0] != '%' then Some((t[0], 1))
    else
      var lead := ReadByte(t);
      if lead.None? then None
      else
        var b0 := lead.value;
        if b0 < 0x80 then Some((b0 as char, 3))
        else if 0xC0 <= b0 < 0xE0 then FinishSequence(t, 1, b0 - 0xC0, 0x80)
        else if 0xE0 <= b0 < 0xF0 then FinishSequence(t, 2, b0 - 0xE0, 0x800)
        else if 0xF0 <= b0 < 0xF8 then FinishSequence(t, 3, b0 - 0xF0, 0x1_0000)
        else None
  }

  /** `decodeURIComponent(t)`; `None` where it throws a URIError. */
  function Decode(t: string): Option<string>
    decreases |t|
  {
    if t == [] then Some("")
    else
      match DecodeOne(t)
      case None => None
      case Some((c, n)) =>
        match Decode(t[n..])
        case None => None
        case Some(rest) => Some([c] + rest)
  }

  lemma HexRoundTrip(d: nat)
    requires d < 16
    ensures HexValue(HexDigit(d)) == Some(d)
  {
  }

  lemma ReadPercentByte(b: nat, rest: string)
    requires b < 256
    ensures ReadByte(PercentByte(b) + rest) == Some(b)
    ensures (PercentByte(b) + rest)[3..] == rest
  {
    HexRoundTrip(b / 16);
    HexRoundTrip(b % 16);
  }

  /** The payloads `xs` shifted into `acc`, most significant first. */
  function Shift(acc: nat, xs: seq<nat>): nat
    decreases |xs|
  {
    if xs == [] then acc else Shift(acc * 64 + xs[0], xs[1..])
  }

  lemma {:induction false} ReadEncodedContinuations(xs: seq<nat>, rest: string, acc: nat)
    requires Payloads(xs)
    ensures ReadContinuations(PercentContinuations(xs) + rest, |xs|, acc) == Some(Shift(acc, xs))
  {
    if xs != [] {
      var t := PercentContinuations(xs) + rest;
      var tail := PercentContinuations(xs[1..]) + rest;
      assert xs[0] < 64;
      assert t == PercentByte(0x80 + xs[0]) + tail;
      ReadPercentByte(0x80 + xs[0], tail);
      assert ReadByte(t) == Some(0x80 + xs[0]) && t[3..] == tail;
      ReadEncodedContinuations(xs[1..], rest, acc * 64 + xs[0]);
      assert ReadContinuations(t, |xs|, acc) == ReadContinuations(tail, |xs| - 1, acc * 64 + xs[0]);
    }
  }

  /** Shifting the continuation payloads into the lead byte's bits restores the code point. */
  lemma Utf8Recombines(cp: nat)
    requires cp >= 0x80
    ensures Shift(Utf8Lead(cp) - (if cp < 0x800 then 0xC0 else if cp < 0x1_0000 then 0xE0 else 0xF0),
                  Utf8Tail(cp)) == cp
  {
    var q1 := cp / 64;
    var q2 := q1 / 64;
    assert q2 == cp / 4096;
    assert q2 / 64 == cp / 262144;
    if cp < 0x800 {
      assert Shift(q1, [cp % 64]) == Shift(q1 * 64 + cp % 64, []);
    } else if cp < 0x1_0000 {
      var xs := [q1 % 64, cp % 64];
      assert Shift(q2, xs) == Shift(q2 * 64 + q1 % 64, [cp % 64]);
      assert Shift(q2 * 64 + q1 % 64, [cp % 64]) == Shift(q1 * 64 + cp % 64, []);
    } else {
      var q3 := q2 / 64;
      var xs := [q2 % 64, q1 % 64, cp % 64];
      assert Shift(q3, xs) == Shift(q3 * 64 + q2 % 64, xs[1..]);
      assert xs[1..] == [q1 % 64, cp % 64];
      assert Shift(q2, [q1 % 64, cp % 64]) == Shift(q2 * 64 + q1 % 64, [cp % 64]);
      assert Shift(q2 * 64 + q1 % 64, [cp % 64]) == Shift(q1 * 64 + cp % 64, []);
    }
  }

  /** The first character of an encoding decodes back to the character that produced it,
      consuming exactly its encoding. */
  lemma DecodeOneEncodeChar(c: char, rest: string)
    ensures DecodeOne(EncodeChar(c) + rest) == Some((c, |EncodeChar(c)|))
  {
    if !Unreserved(c) {
      DecodeOneEscaped(c, rest);
    }
  }

  /** The escaped case: the lead byte selects the sequence length, and the continuation
      bytes complete the code point. */
  lemma DecodeOneEscaped(c: char, rest: string)
    requires !Unreserved(c)
    ensures DecodeOne(EncodeChar(c) + rest) == Some((c, |EncodeChar(c)|))
  {
    var cp := c as int;
    var lead := Utf8Lead(cp);
    var t := EncodeChar(c) + rest;
    var tail := PercentContinuations(Utf8Tail(cp)) + rest;
    assert t == PercentByte(lead) + tail;
    ReadPercentByte(lead, tail);
    LeadRange(cp);
    DecodeOneLead(t, lead);
    if cp < 0x80 {
      assert |EncodeChar(c)| == 3;
    } else {
      assert |EncodeChar(c)| == 3 * (|Utf8Tail(cp)| + 1);
      DecodeOneMulti(c, rest, t, lead);
    }
  }

  lemma DecodeOneMulti(c: char, rest: string, t: string, lead: nat)
    requires c as int >= 0x80 && lead == Utf8Lead(c as int)
    requires t == PercentByte(lead) + (PercentContinuations(Utf8Tail(c as int)) + rest)
    requires 0xC0 <= lead < 0xE0 ==> DecodeOne(t) == FinishSequence(t, 1, lead - 0xC0, 0x80)
    requires 0xE0 <= lead < 0xF0 ==> DecodeOne(t) == FinishSequence(t, 2, lead - 0xE0, 0x800)
    requires 0xF0 <= lead < 0xF8 ==> DecodeOne(t) == FinishSequence(t, 3, lead - 0xF0, 0x1_0000)
    ensures DecodeOne(t) == Some((c, 3 * (|Utf8Tail(c as int)| + 1)))
  {
    var cp := c as int;
    LeadRange(cp);
    if cp < 0x800 {
      DecodeMultiByte(c, rest, 0xC0, 0x80);
    } else if cp < 0x1_0000 {
      DecodeMultiByte(c, rest, 0xE0, 0x800);
    } else {
      DecodeMultiByte(c, rest, 0xF0, 0x1_0000);
    }
  }

  /** The lead byte of each sequence length falls in that length's range. */
  lemma LeadRange(cp: nat)
    requires cp < 0x11_0000
    ensures cp < 0x80 ==> Utf8Lead(cp) == cp && Utf8Tail(cp) == []
    ensures 0x80 <= cp < 0x800 ==> 0xC0 <= Utf8Lead(cp) < 0xE0 && |Utf8Tail(cp)| == 1
    ensures 0x800 <= cp < 0x1_0000 ==> 0xE0 <= Utf8Lead(cp) < 0xF0 && |Utf8Tail(cp)| == 2
    ensures 0x1_0000 <= cp ==> 0xF0 <= Utf8Lead(cp) < 0xF8 && |Utf8Tail(cp)| == 3
  {
  }

  /** How `DecodeOne` dispatches on an escaped lead byte. */
  lemma DecodeOneLead(t: string, lead: nat)
    requires t != [] && t[0] == '%' && ReadByte(t) == Some(lead)
    ensures lead < 0x80 ==> DecodeOne(t) == Some((lead as char, 3))
    ensures 0xC0 <= lead < 0xE0 ==> DecodeOne(t) == FinishSequence(t, 1, lead - 0xC0, 0x80)
    ensures 0xE0 <= lead < 0xF0 ==> DecodeOne(t) == FinishSequence(t, 2, lead - 0xE0, 0x800)
    ensures 0xF0 <= lead < 0xF8 ==> DecodeOne(t) == FinishSequence(t, 3, lead - 0xF0, 0x1_0000)
  {
  }

  /** A character of two, three or four UTF-8 bytes: `base` is the lead byte's marker and
      `least` the smallest code point of that length. */
  lemma DecodeMultiByte(c: char, rest: string, base: nat, least: nat)
    requires c as int >= 0x80
    requires base == (if c as int < 0x800 then 0xC0 else if c as int < 0x1_0000 then 0xE0 else 0xF0)
    requires least == (if c as int < 0x800 then 0x80 else if c as int < 0x1_0000 then 0x800 else 0x1_0000)
    ensures FinishSequence(PercentByte(Utf8Lead(c as int)) + (PercentContinuations(Utf8Tail(c as int)) + rest),
                           |Utf8Tail(c as int)|, Utf8Lead(c as int) - base, least)
            == Some((c, 3 * (|Utf8Tail(c as int)| + 1)))
  {
    var cp := c as int;
    var xs := Utf8Tail(cp);
    var tail := PercentContinuations(xs) + rest;
    var t := PercentByte(Utf8Lead(cp)) + tail;
    assert t[3..] == tail;
    ReadEncodedContinuations(xs, rest, Utf8Lead(cp) - base);
    Utf8Recombines(cp);
    assert Scalar(cp) == Some(c);
  }

  /** Decoding an encoding gives back the original string: `encodeURIComponent` is
      injective and `decodeURIComponent` inverts it. */
  lemma {:induction false} DecodeEncode(s: string)
    ensures Decode(Encode(s)) == Some(s)
  {
    if s != [] {
      var e := EncodeChar(s[0]);
      var t := Encode(s);
      assert t == e + Encode(s[1..]);
      DecodeOneEncodeChar(s[0], Encode(s[1..]));
      assert t[|e|..] == Encode(s[1..]);
      DecodeEncode(s[1..]);
      assert [s[0]] + s[1..] == s;
    }
  }

  /** Hence different components never encode alike. */
  lemma EncodeInjective(s: string, u: string)
    requires Encode(s) == Encode(u)
    ensures s == u
  {
    DecodeEncode(s);
    DecodeEncode(u);
  }
}
